=== FILE: README.md ===
# json_proxy core, modelled in Dafny

json_proxy is the bridge between a web front end and REMA, the controller
that moves an inspection probe over a heat-exchanger tubesheet. This project
models its core:

- **`Points`**: the `Point3D` value type, with its arithmetic operators, its
  compound assignments and its two distances.
- **`Sequencer`**: `exec_seq`, the loop that sends one `MOVE_CLOSED_LOOP`
  command per sequence step. After each send it reads telemetry until the
  probe touches, the `x_y` condition holds or a cancel arrives. It records a
  boundary point on `x_y`.
- **`Planner`**: the planning half of `determine_tube_center`. This covers the
  unit scale, the probe radius, the step-2-modulo-5 probing order and the
  `"XY"` steps.
- **`Locator`**: `determine_tube_center` itself, as written and as
  corrected. The handler takes and releases `is_determining`, probes, fits a
  circle and moves to its centre.
- **`RestHandlers`**: the request validation of `inspection_sessions_create`,
  `tools_create` and `cal_points_delete`.
- **`Json`**, **`Ordering`**, **`TubeIds`**: the library behaviour those handlers
  rely on. This is nlohmann's `operator[]`, `get<std::string>()` and
  `empty()` with their exception texts; `std::sort` on the listing objects;
  and `std::stoi` applied to `substr(5)`.
- **`NetCommands`**: the websocket command table and `cmd_execute`;
  `session_create` / `session_load` / `session_info`; tube `to_json` /
  `from_json`; the tubesheet loader; and the two sorted directory listings.

Everything is modelled as pure functions over immutable datatypes. Global
state (`current_session`, the REMA singleton) is an explicit argument and
comes back in the result. The outside world becomes parameters:
- the telemetry stream is a feed of `Tick`s;
- a failing `send_blocking` is a `SendFault` naming the send that throws;
- `calculateCirclePoints`, `fitCircle` and `std::stof` are function
  parameters;
- directory listings, CSV rows and session creation outcomes are inputs.

`double` and `float` are idealised as `real`, and `int` as a range-checked
`int`.

Some behaviours of the code are easy to misread; the model follows the
code as written:

- `exec_seq` pushes `AXES_SOFT_STOP_ALL` but clears the command array before
  the first send, so the stop command is never transmitted
  (`Sequencer.ExecSeq`).
- A boundary point is recorded when `on_condition.x_y` holds, not when the
  probe touches. A point recorded in the step where a cancel arrives is kept
  (`Sequencer.CancelKeepsLastPoint`).
- Nothing checks that enough points were gathered before `fitCircle` runs.
- `operator/` with a zero divisor returns the point unchanged, while `/=`
  throws (`Points.DivisionByZeroContracts`).
- Any unit other than exactly `"inch"` is treated as millimetres
  (`Planner.Scale`).
- An exception from `send_blocking` leaves `is_determining` set; see
  Findings.
- An empty tube id in `determine_tube_center` sends no reply at all.
- `session_create` rejects a name that is empty or ends in `/`. An empty
  `hx` string passes the `empty()` test of `inspection_sessions_create`,
  because a JSON string is never `empty()`.

## Model

| member | source | states |
|---|---|---|
| Points.Default | inc/points.hpp:88-90 | the default point is the origin: neutral for `+` on both sides and fixed by every scaling |
| Points.Div | inc/points.hpp:16-24 | a zero divisor returns the point unchanged; otherwise the quotient times the divisor is the point again |
| Points.AddSubInverse | inc/points.hpp:26-34 | `-` undoes `+` and `+` undoes `-` |
| Points.AddCommutes | inc/points.hpp:27-29 | point addition is commutative |
| Points.DivUndoesMul | inc/points.hpp:12-24 | dividing by a non-zero scalar undoes multiplying by it |
| Points.AddAssign | inc/points.hpp:37-42 | updating the fields one by one yields the same point as `+` |
| Points.SubAssign | inc/points.hpp:45-50 | updating the fields one by one yields the same point as `-` |
| Points.MulAssign | inc/points.hpp:53-58 | updating the fields one by one yields the same point as `*` |
| Points.DivAssign | inc/points.hpp:61-70 | a zero divisor throws "Division by zero" and leaves the point untouched; otherwise it agrees with `/` |
| Points.DivisionByZeroContracts | inc/points.hpp:16-70 | `/=` succeeds exactly when the divisor is non-zero, and its resulting point always equals that of `/` |
| Points.DistanceSq | inc/points.hpp:79-81 | the squared distance is non-negative and zero from a point to itself |
| Points.DistanceXYSq | inc/points.hpp:84-86 | the planar distance never exceeds the 3-D distance and vanishes when x and y agree |
| Points.DistancePositive | inc/points.hpp:79-81 | distinct points are at a positive distance |
| Points.DistanceSymmetric | inc/points.hpp:79-86 | both distances are symmetric |
| Points.DistanceXYIgnoresZ | inc/points.hpp:79-86 | the planar distance does not depend on z; the 3-D one is the planar one plus the z term |
| Points.MulScalesDistance | inc/points.hpp:79-81 | scaling both points by s scales the squared distance by s squared |
| Points.DistanceTranslationInvariant | inc/points.hpp:79-81 | translating both points by the same vector keeps their distance |
| Sequencer.Cleared | restfull_api.cpp:399-399 | the command array is emptied before each step's command goes in |
| Sequencer.Fold | restfull_api.cpp:406-412 | one receive attempt: a received frame becomes the telemetry; a failed receive keeps the old telemetry; the cancel flag is whatever the other thread set; `is_determining` is untouched |
| Sequencer.Wait | restfull_api.cpp:406-416 | the wait loop only exits on probe, cancel or `x_y`, consuming at least one frame; `is_determining` is untouched |
| Sequencer.ReceiveFailureRetries | restfull_api.cpp:407-412 | a receive timeout with no condition set just retries |
| Sequencer.StaleFrameEndsWait | restfull_api.cpp:406-416 | a do-while runs once, so a stale `x_y` left from the previous step ends the next wait after a failed receive |
| Sequencer.Recorded | restfull_api.cpp:417-419 | at most one point is recorded per completed wait |
| Sequencer.RecordedOnlyXY | restfull_api.cpp:417-419 | every recorded point is the coordinates of a wait that ended with `x_y` |
| Sequencer.RunSteps | restfull_api.cpp:392-426 | each sent buffer holds exactly its step's move; each step ends its wait; a cancel ends the run and clears `is_determining`; a send fails only at the faulted send, nothing is sent from the faulted send on, and a run with a fault inside its steps never completes |
| Sequencer.ExecSeq | restfull_api.cpp:382-428 | one single-command buffer per step sent, never the soft stop; no more points than sends, and no more sends than steps; a throwing send is the faulted one, ends the sequence before anything more is sent, and so a fault inside the steps means the sequence does not complete |
| Sequencer.CancelKeepsLastPoint | restfull_api.cpp:417-424 | on cancel the point of the cancelled step is still kept, and `is_determining` is cleared |
| Sequencer.PointsComeFromXY | restfull_api.cpp:414-419 | every returned point comes from a wait that ended on `x_y` |
| Sequencer.WaitEndsFirst | restfull_api.cpp:406-415 | a frame that meets an exit condition ends the wait at once, leaving the rest of the feed unread |
| Sequencer.WaitPasses | restfull_api.cpp:406-415 | a frame that meets no exit condition is folded in and the wait goes on |
| Sequencer.StepContinues | restfull_api.cpp:392-425 | an uncancelled step sends one buffer, records its point when `x_y` is set, and hands over to the next step |
| Sequencer.StepCancels | restfull_api.cpp:392-423 | a step whose wait ends on a cancel sends one buffer and ends the run with `is_determining` cleared |
| Sequencer.CancelledStep | restfull_api.cpp:406-423 | a flagless frame and then a cancel: one buffer, no point, the run is cancelled |
| Sequencer.CancelledScenario | restfull_api.cpp:392-426 | for a five-step sequence with two `x_y` frames then a cancel, three buffers go out and two points come back |
| Planner.Scale | restfull_api.cpp:444-444 | the scale is 1 exactly for `"inch"` and 25.4 for every other unit |
| Planner.ProbeRadius | restfull_api.cpp:445-445 | twice the radius, rescaled, is the tube's outer diameter |
| Planner.MillimetreTubeRadius | restfull_api.cpp:444-445 | a 19.05 mm tube gives a 0.375 inch probing radius |
| Planner.NominalCenter | restfull_api.cpp:450-450 | a known tube id yields its centre; an unknown one yields the origin |
| Planner.TubesAfterLookup | restfull_api.cpp:450-450 | after the lookup the id is present with the centre that was read; an unknown id is added, every other entry is kept |
| Planner.ProbeCenter | restfull_api.cpp:450-450 | the probing centre, rescaled, is the nominal centre |
| Planner.Reorder | restfull_api.cpp:452-456 | the reordered sequence has as many points as the input |
| Planner.ReorderPoints | restfull_api.cpp:449-456 | the index loop builds the reference reordering |
| Planner.FivePointOrder | restfull_api.cpp:447-456 | five points are probed in the order 0, 2, 4, 1, 3 |
| Planner.OrderIndexBijective | restfull_api.cpp:447-456 | for an odd count, the step-2 order is a bijection, with an explicit inverse |
| Planner.EvenCountRevisits | restfull_api.cpp:448-448 | for an even count the order revisits point 0, which is why the count must be odd |
| Planner.ReorderIsEvensThenOdds | restfull_api.cpp:452-456 | for an odd count the order is the even positions, then the odd ones |
| Planner.ReorderIsPermutation | restfull_api.cpp:447-456 | for an odd count every circle point is probed exactly once |
| Planner.StepsFor | restfull_api.cpp:458-465 | one `"XY"` step per point, with setpoints its x and y |
| Planner.Plan | restfull_api.cpp:447-465 | step k moves to circle point (2k mod 5) |
| Planner.PlannedRunTargetsCircle | restfull_api.cpp:458-467 | every buffer the probing run sends is the move to the planned circle point |
| Locator.GotoCenter | restfull_api.cpp:472-475 | the final step moves in XY to the fitted centre |
| Locator.Determine | restfull_api.cpp:430-484 | the handler spins exactly when `is_determining` is already set, and then sends nothing and only raises `cancel_cmd` |
| Locator.DetermineAsWritten | restfull_api.cpp:430-484 | the handler as written spins exactly when the flag is set, sending nothing |
| Locator.SendFailureLeavesFlagSet | restfull_api.cpp:467-482 | as written, a first send that throws ends the handler with `is_determining` still set |
| Locator.DetermineTubeCenter | restfull_api.cpp:430-484 | corrected handler: every finished run releases the flag; it spins exactly when the flag is set, sending nothing; an empty id finishes with no reply and nothing sent |
| Locator.SendFailureReleasesFlag | restfull_api.cpp:467-482 | corrected, a first send that throws leaves the flag clear |
| Locator.AfterProbe | restfull_api.cpp:467-482 | after the probing run: an exception from any send, the probing moves or the move to the centre, ends the handler with no reply and the flag kept as written and cleared when corrected; a reply carries the probe points and the centre and radius `fitCircle` computes from them, and the sent buffers end with the move to that centre; after a completed or cancelled probe whose centre move does not throw, a reply is sent exactly when that move finishes |
| Locator.CorrectedReleases | restfull_api.cpp:430-484 | the corrected handler never finishes with `is_determining` set |
| Locator.ProbeThenReply | restfull_api.cpp:458-480 | whenever a reply is sent, the buffers sent are the planned circle moves in probing order followed by the move to the centre, and the reply's points are no more than the probing sends |
| Locator.FirstSendFails | restfull_api.cpp:404-404 | a send that throws at once ends the sequence with nothing sent and no points |
| Json.TypeName | restfull_api.cpp:119-119 | nlohmann's kind names: `"null"`, `"string"` and `"number"` exactly for their kinds |
| Json.Field | restfull_api.cpp:182-182 | `operator[]` yields the member, null for a missing key or a null value, and throws 305 on any other kind |
| Json.StringField | restfull_api.cpp:182-182 | reading a string field succeeds exactly when the lookup succeeds and yields a string |
| Json.StringFieldCases | restfull_api.cpp:182-182 | a present string is read; a missing key or a null request throws exactly "[json.exception.type_error.302] type must be string, but is null"; other kinds throw 305 |
| RestHandlers.MissingInputs | restfull_api.cpp:183-189 | the error text is empty exactly when the name is non-empty and `hx` is not `empty()` |
| RestHandlers.InspectionSessionsCreate | restfull_api.cpp:172-207 | throws exactly when `session_name` is not a string; 400 with the accumulated messages on bad input; 201 and the new current session on success; 500 on a creation failure |
| RestHandlers.BothInputsMissing | restfull_api.cpp:183-193 | with both inputs missing, both messages accumulate in order under 400 |
| RestHandlers.EmptyHxStringPasses | restfull_api.cpp:187-189 | an `hx` of `""` is not `empty()` and goes on to creation |
| RestHandlers.SaveFailureKeepsLog | restfull_api.cpp:195-203 | when saving throws, the plans log is kept and the error text is appended, with 500 |
| RestHandlers.ReadOffset | restfull_api.cpp:119-121 | the read throws `invalid_argument` exactly when the field is a string that `stof` cannot convert; a non-string field throws the 302 type error instead |
| RestHandlers.Caught | restfull_api.cpp:127-134 | `invalid_argument` maps to 400, everything else to 500 |
| RestHandlers.ReadTool | restfull_api.cpp:119-123 | a tool is built exactly when all three offsets read, and it carries them; the exception is that of the first failing offset, in the order x, y, z |
| RestHandlers.ToolsCreate | restfull_api.cpp:99-137 | throws exactly when `tool_name` is not a string; empty name gives 400; otherwise 201 and a tool, or the caught status |
| RestHandlers.OffsetErrors | restfull_api.cpp:119-134 | an unconvertible offset gives 400 "Offsets wrong"; a missing offset reads as null and gives 500 with the 302 text naming null; a numeric offset gives 500 with the 302 text naming number |
| RestHandlers.CalPointsDelete | restfull_api.cpp:332-346 | an empty id gives 500 "No tube specified" and changes nothing; otherwise 204 and exactly that tube's points are gone |
| RestHandlers.CalPointsDeleteIdempotent | restfull_api.cpp:332-346 | deleting twice gives the same points as deleting once, with the same reply |
| Ordering.StrLeqTotal | net_commands.cpp:71-71 | the string order is total |
| Ordering.StrLeqTransitive | net_commands.cpp:71-71 | the string order is transitive |
| Ordering.StrLeqAntisymmetric | net_commands.cpp:71-71 | the string order is antisymmetric |
| Ordering.Insert | net_commands.cpp:71-71 | inserting into a sorted listing keeps it sorted and adds exactly that entry |
| Ordering.Sort | net_commands.cpp:71-71 | the result is sorted and a permutation of the input |
| Ordering.SortedUnique | net_commands.cpp:65-71 | two sorted permutations of the same entries are equal |
| Ordering.SortIgnoresInputOrder | net_commands.cpp:65-71 | the listing does not depend on the order of the directory iterator |
| TubeIds.Stoi | net_commands.cpp:54-54 | `stoi` fails only with `invalid_argument` or `out_of_range` |
| TubeIds.SignedNumber | net_commands.cpp:54-54 | after the blanks, the sign and the digits fail only with `invalid_argument` or `out_of_range` |
| TubeIds.ParseTubeId | net_commands.cpp:54-54 | `substr(5)` throws exactly for fields shorter than five, carrying their size |
| TubeIds.DecimalRoundTrip | net_commands.cpp:54-54 | reading the decimal form of a number gives the number back |
| TubeIds.ParsesDecimal | net_commands.cpp:54-54 | five label characters then a decimal `int`, with any non-digit suffix, parse to that number |
| TubeIds.ParsesNegativeDecimal | net_commands.cpp:54-54 | a minus sign after the label negates, down to `INT_MIN` |
| TubeIds.TooLargeIsOutOfRange | net_commands.cpp:54-54 | a number above `INT_MAX` throws `out_of_range` |
| TubeIds.NoDigitsIsInvalid | net_commands.cpp:54-54 | no digits after the blanks and the sign throws `invalid_argument` |
| TubeIds.LeadingSpaceSkipped | net_commands.cpp:54-54 | white space after the label is skipped |
| NetCommands.TubeToJson | net_commands.cpp:27-31 | the object has exactly the seven tube keys, holding the tube's labels, id and four coordinates; color and plan are not written |
| NetCommands.At | net_commands.cpp:34-40 | `at` succeeds exactly on objects holding the key |
| NetCommands.GetReal | net_commands.cpp:36-39 | number conversion accepts numbers and booleans only |
| NetCommands.Truncate | net_commands.cpp:40-40 | float-to-int conversion truncates toward zero |
| NetCommands.Wrap32 | net_commands.cpp:40-40 | values are reduced modulo 2^32 into the `int` range, and `int` values are unchanged |
| NetCommands.GetInt | net_commands.cpp:40-40 | integer conversion accepts numbers and booleans, and keeps an in-range integer |
| NetCommands.TubeFromJson | net_commands.cpp:33-41 | on success all seven keys were present, and the target's color and plan are kept |
| NetCommands.NewTube | net_commands.cpp:15-25 | a fresh tube is white with no inspection plan |
| NetCommands.TubeRoundTrip | net_commands.cpp:27-41 | `from_json(to_json(t))` restores every serialised field and keeps the target's color and plan |
| NetCommands.TubeRoundTripForgetsColor | net_commands.cpp:23-41 | a round trip into a fresh tube turns any color back to white |
| NetCommands.MissingTubeKey | net_commands.cpp:34-34 | a missing `x_label` throws out_of_range 403 with the key named |
| NetCommands.ParseRows | net_commands.cpp:53-55 | loading succeeds exactly when every row's id parses, one tube per row, in order |
| NetCommands.HxLoadTubesheet | net_commands.cpp:43-59 | the reply is an array with one element per CSV row exactly when all ids parse |
| NetCommands.TubesheetReadsBack | net_commands.cpp:43-59 | each reply element reads back to its row's labels, coordinates and parsed id |
| NetCommands.Listing | net_commands.cpp:61-74 | null exactly for no entries; otherwise an array with one item per entry, a sorted permutation of the entries, each an object with the two keys |
| NetCommands.HxEntries | net_commands.cpp:65-70 | exactly the directories, named twice; none exactly when there is no directory |
| NetCommands.SessionEntries | net_commands.cpp:90-106 | exactly the regular files, as date and name; none exactly when there is no regular file |
| NetCommands.HxEntriesAppend | net_commands.cpp:65-70 | the folder is walked once, in order: two stretches of a folder list as the two listings joined, and a single entry contributes one item exactly when it is a directory, so duplicates in the listing come only from duplicates in the folder |
| NetCommands.SessionEntriesAppend | net_commands.cpp:90-106 | the same walk for sessions: two stretches list as the two listings joined, and a single entry contributes its date and name exactly when it is a regular file |
| NetCommands.HxList | net_commands.cpp:61-74 | the reply is null exactly when the folder holds no directory |
| NetCommands.InspSessionsList | net_commands.cpp:86-111 | the reply is null exactly when the folder holds no regular file |
| NetCommands.ListingKeysOrdered | net_commands.cpp:67-104 | `abreb` sorts before `name`, and `file_date` before `file_name`, so the first key decides |
| NetCommands.ListingIsSortedEntries | net_commands.cpp:61-74 | read back, a non-empty listing is the one sorted arrangement of its entries, whatever order they came in |
| NetCommands.SessionsOrderedByWeekdayName | net_commands.cpp:96-108 | sessions are ordered by the formatted date text, so a Friday is listed before a Monday of the same week |
| NetCommands.SessionCreate | net_commands.cpp:116-158 | throws exactly when the name is not a string; a missing filename or an empty `hx` is rejected with its message; the current session only changes on a successful creation |
| NetCommands.SessionCreateSucceedsOnlyByCreating | net_commands.cpp:143-157 | a success reply comes only from a successful creation, which becomes the current session |
| NetCommands.SessionLoad | net_commands.cpp:160-173 | an empty name is rejected and the session kept; otherwise the load's exception escapes, or the loaded session becomes current with success |
| NetCommands.SessionInfo | net_commands.cpp:175-191 | an empty object exactly when no session is loaded; otherwise exactly the three keys, with the plan names in order |
| NetCommands.Commands | net_commands.cpp:194-201 | the table holds exactly the six command names |
| NetCommands.CmdExecute | net_commands.cpp:203-209 | an unknown command yields null and changes nothing |
| NetCommands.Dispatch | net_commands.cpp:203-206 | each known name runs its own handler |
| NetCommands.OnlySessionCommandsChangeSession | net_commands.cpp:194-209 | only `session_create` and `session_load` can change the current session |

## Left out

- `sqrt` and `std::pow` are left out: the distances are modelled as squared distances.
- `double` and `float` rounding is not modelled: both are exact `real`s.
- `float` narrowing of the tube coordinates is not modelled.
- JSON unsigned integers are not modelled.
- Conversion of an out-of-range floating-point number to `int` is undefined behaviour in C++; `NetCommands.GetInt` wraps it modulo 2^32 instead.
- The spin-wait on `is_determining` needs another thread to end it. It is modelled as the `SpinningOnFlag` outcome.
- The concurrent writer of `cancel_cmd` is modelled as the per-frame cancel value in the telemetry feed.
- `calculateCirclePoints` and `fitCircle` are not part of this model: they are function parameters. `calculateCirclePoints` is assumed to return `points_number` points, as the indexing in the handler requires.
- A run that is still waiting when the telemetry feed ends is reported as `AwaitingTelemetry`. The real loop would keep waiting.
- The REMA transport is not modelled: the socket clients, their timeouts, the 100 ms sleep and the console logging.
- The text dump of `tx_buffer` is not modelled: a buffer is the list of commands it holds.
- `update_telemetry`'s parsing of the stream is not modelled: a received frame is already a telemetry value.
- restbed is not modelled: routing, `close_session`, body fetching and `json::parse` of the body. A handler's input is the parsed form.
- `std::stof` is a parameter: its three outcomes are a value, no conversion and out of range.
- The `Tool` constructor, `InspectionSession` construction, `load_plans` and `save_to_disk` are not part of this model. Their outcomes are inputs.
- `InspectionSession::cal_points_delete` is not part of this model. It is modelled as erasing the tube's key from a map.
- The CSV reader's own parsing and errors are not modelled: rows come in already split and trimmed.
- Directory iteration is not modelled: a listing is a sequence of entries.
- The `gmtime`/`put_time` formatting is not modelled: an entry carries its formatted date.
- The `ofstream` write of a new session file is not modelled.
- `inspection_session::load` is not part of this model. A throwing load is reported as a failure, and the state after it is not modelled.
- The websocket server that calls `cmd_execute` is not modelled.
- The REST handlers other than the three named above are not modelled.
- `Sequencer.ExecSeq`'s `WellFormedRun` part is a ghost predicate; the compiled clauses of `ExecSeq` state the buffer and length facts.
- `Planner.NominalCenter`: returns only the looked-up centre. The map with the origin inserted under an unknown id is `Planner.TubesAfterLookup`; the handler's result does not carry the session, because nothing in the handler reads the tubes again.

## Findings

| source | as written | input that shows it | evidently intended | confidence | as-written member | corrected member |
|---|---|---|---|---|---|---|
| restfull_api.cpp:467-482 | `is_determining = false` is only reached on a normal return; an exception from `send_blocking` in `exec_seq` skips it | a non-empty tube id with the first `send_blocking` throwing: the handler ends with `is_determining` still set, and every later request spins on it forever | release `is_determining` on every exit path | not executed | Locator.SendFailureLeavesFlagSet | Locator.SendFailureReleasesFlag |

=== FILE: json.dfy ===
/** The part of an nlohmann JSON value that the handlers inspect: its kind,
    `empty()`, `type_name()`, and the `operator[]` / `get<std::string>()`
    pair through which every handler reads a string field of its request.
    Exceptions are represented by their `what()` text. */
module Json {
  import opened Wrappers

  /** A JSON value. Integers and floating-point numbers are kept apart, as
      nlohmann does; floating-point numbers are idealised as `real`. */
  datatype Json =
    | JNull
    | JBool(b: bool)
    | JInt(i: int)
    | JFloat(f: real)
    | JString(s: string)
    | JArray(items: seq<Json>)
    | JObject(fields: map<string, Json>)

  /** `empty()`: true for null and for an array or object without elements;
      a string, even `""`, a number or a boolean is never empty. */
  predicate IsEmpty(j: Json)
  {
    match j
    case JNull => true
    case JArray(items) => |items| == 0
    case JObject(fields) => |fields| == 0
    case _ => false
  }

  /** `type_name()`: every number kind is reported as `"number"`. */
  function TypeName(j: Json): (name: string)
    ensures name == "null" <==> j.JNull?
    ensures name == "string" <==> j.JString?
    ensures name == "number" <==> j.JInt? || j.JFloat?
  {
    match j
    case JNull => "null"
    case JBool(_) => "boolean"
    case JInt(_) => "number"
    case JFloat(_) => "number"
    case JString(_) => "string"
    case JArray(_) => "array"
    case JObject(_) => "object"
  }

  /** The `what()` of type_error 302, thrown by a conversion to a string of
      a value that is not one. */
  function NotAString(j: Json): string
  {
    "[json.exception.type_error.302] type must be string, but is " + TypeName(j)
  }

  /** The `what()` of type_error 305, thrown by `operator[]` with a key on a
      value that is neither null nor an object. */
  function NoKeyLookup(j: Json): string
  {
    "[json.exception.type_error.305] cannot use operator[] with a string argument with " + TypeName(j)
  }

  /** `j[key]` on a mutable value: a null value becomes an object first, and
      a missing key is inserted with a null value, so the lookup yields null;
      any other kind of value throws. */
  function Field(j: Json, key: string): (r: Result<Json, string>)
    ensures r.Failure? <==> !(j.JNull? || j.JObject?)
    ensures r.Failure? ==> r.error == NoKeyLookup(j)
    ensures j.JObject? && key in j.fields ==> r == Success(j.fields[key])
    ensures j.JNull? || (j.JObject? && key !in j.fields) ==> r == Success(JNull)
  {
    if j.JNull? || j.JObject? then Success(Member(j, key)) else Failure(NoKeyLookup(j))
  }

  /** The value `j[key]` yields once `j` is known to be an object (or
      null, which `operator[]` turns into an empty object). */
  function Member(j: Json, key: string): (v: Json)
    ensures j.JObject? && key in j.fields ==> v == j.fields[key]
    ensures !(j.JObject? && key in j.fields) ==> v == JNull
  {
    if j.JObject? && key in j.fields then j.fields[key] else JNull
  }

  /** `std::string s = j;` or `j.get<std::string>()`. */
  function GetString(j: Json): (r: Result<string, string>)
    ensures r.Success? <==> j.JString?
    ensures j.JString? ==> r.value == j.s
    ensures !j.JString? ==> r.error == NotAString(j)
  {
    if j.JString? then Success(j.s) else Failure(NotAString(j))
  }

  /** `std::string s = j[key];`: the lookup, then the conversion. */
  function StringField(j: Json, key: string): (r: Result<string, string>)
    ensures r.Success? <==> (j.JNull? || j.JObject?) && Field(j, key).value.JString?
  {
    var v :- Field(j, key);
    GetString(v)
  }

  /** Reading a string field succeeds exactly on an object that holds a
      string under that key, and then yields that string. A missing field
      reads as null and so fails with "type must be string, but is null". */
  lemma StringFieldCases(j: Json, key: string)
    ensures j.JObject? && key in j.fields && j.fields[key].JString? ==>
      StringField(j, key) == Success(j.fields[key].s)
    ensures j.JObject? && key !in j.fields ==>
      StringField(j, key) == Failure("[json.exception.type_error.302] type must be string, but is null")
    ensures j.JNull? ==> StringField(j, key) == Failure("[json.exception.type_error.302] type must be string, but is null")
    ensures !(j.JNull? || j.JObject?) ==> StringField(j, key) == Failure(NoKeyLookup(j))
  {
    assert NotAString(JNull) == "[json.exception.type_error.302] type must be string, but is null";
  }

  /** The two-field object `{ "success": ..., "logs": ... }` that the
      network commands reply with when they reject their arguments. */
  function Rejection(logs: string): (j: Json)
    ensures j.JObject? && j.fields.Keys == {"success", "logs"}
    ensures j.fields["success"] == JBool(false) && j.fields["logs"] == JString(logs)
  {
    JObject(map["success" := JBool(false), "logs" := JString(logs)])
  }
}

=== FILE: locator.dfy ===
/** `determine_tube_center` as one sequential request: take the
    `is_determining` flag, plan the probing circle, run the probing sequence,
    fit a circle through the boundary points, move to the fitted centre and
    reply. `calculateCirclePoints` and `fitCircle` are not part of this model
    and come in as parameters. Two versions are given: the handler as written,
    which leaves `is_determining` set when `send_blocking` throws, and the
    corrected one, which releases it on every exit path. */
module Locator {
  import opened Wrappers
  import opened Points
  import opened Sequencer
  import opened Planner

  /** The body of the OK reply: `reached_coords`, `center`, `radius`. */
  datatype CenterReply = CenterReply(reachedCoords: seq<Point3D>, center: Point3D, radius: real)

  /** How far the handler got: it returned (normally or by an exception),
      it is still waiting for telemetry when the feed ends, or it spins on
      `is_determining` because the flag was already set when it started. */
  datatype Progress = Finished | AwaitingTelemetry | SpinningOnFlag

  /** `reply`: the body sent by `close_session`, if any; `sent`: the buffers
      transmitted; `rema`: REMA's state afterwards; `rest`: the unread feed;
      `thrown`: the exception that left the handler, if any. */
  datatype Determination = Determination(
    reply: Option<CenterReply>,
    sent: seq<Buffer>,
    rema: Rema,
    rest: seq<Tick>,
    thrown: Option<string>,
    progress: Progress)

  /** `calculateCirclePoints(center, radius, points_number)`. */
  type CircleFn = (Point3D, real, nat) -> seq<Point3D>

  /** `fitCircle(points)`: a centre and a radius. */
  type FitFn = seq<Point3D> -> (Point3D, real)

  /** The circle points the handler probes: around the scaled nominal centre
      of the tube, at the probe radius. */
  function CirclePointsFor(circle: CircleFn, session: TubeSession, tubeId: string): seq<Point3D>
  {
    circle(ProbeCenter(session, tubeId), ProbeRadius(session), PointsNumber)
  }

  /** The single step that moves the probe to the fitted centre. */
  function GotoCenter(center: Point3D): (step: SequenceStep)
    ensures MoveCommand(step) == MoveClosedLoop("XY", center.x, center.y)
  {
    XYStep(center)
  }

  /** The fault, counted from send number `k` on. */
  function After(fault: Option<SendFault>, k: nat): Option<SendFault>
  {
    match fault
    case Some(SendFault(at, what)) => if at >= k then Some(SendFault(at - k, what)) else None
    case None => None
  }

  /** The fault falls on the next send exactly when it was counted to the
      `k`-th send of the request. */
  lemma AfterFaultsNow(fault: Option<SendFault>, k: nat)
    ensures After(fault, k).Some? && After(fault, k).value.at == 0 <==> fault.Some? && fault.value.at == k
  {
  }

  /** The flag after a send failure, as written and as corrected. */
  function FlagAfterThrow(asWritten: bool, r: Rema): Rema
  {
    if asWritten then r else r.(isDetermining := false)
  }

  /** Shared body of both versions; `asWritten` selects whether an
      exception from `send_blocking` skips the final release of
      `is_determining`. */
  function Determine(asWritten: bool, tubeId: string, session: TubeSession, rema: Rema,
                     circle: CircleFn, fit: FitFn, feed: seq<Tick>, fault: Option<SendFault>): (d: Determination)
    requires |CirclePointsFor(circle, session, tubeId)| == PointsNumber
    ensures d.progress.SpinningOnFlag? <==> rema.isDetermining
    ensures rema.isDetermining ==> d.sent == [] && d.rema == rema.(cancelCmd := true)
  {
    if rema.isDetermining then
      Determination(None, [], rema.(cancelCmd := true), feed, None, SpinningOnFlag)
    else
      var r := rema.(cancelCmd := false, isDetermining := true);
      if tubeId == "" then
        Determination(None, [], r.(isDetermining := false), feed, None, Finished)
      else
        AfterProbe(asWritten, ExecSeq(Plan(CirclePointsFor(circle, session, tubeId)), r, feed, fault), fit, fault)
  }

  /** The corrected handler leaves the flag clear whenever it returns. */
  lemma CorrectedReleases(tubeId: string, session: TubeSession, rema: Rema,
                          circle: CircleFn, fit: FitFn, feed: seq<Tick>, fault: Option<SendFault>)
    requires |CirclePointsFor(circle, session, tubeId)| == PointsNumber
    ensures var d := Determine(false, tubeId, session, rema, circle, fit, feed, fault);
      d.progress.Finished? ==> !d.rema.isDetermining
  {
    if !rema.isDetermining && tubeId != "" {
      var r := rema.(cancelCmd := false, isDetermining := true);
      ProbeReleases(CirclePointsFor(circle, session, tubeId), r, feed, fit, fault);
    }
  }

  /** The corrected handler, past the flag and the tube-id check. */
  lemma ProbeReleases(points: seq<Point3D>, r: Rema, feed: seq<Tick>, fit: FitFn, fault: Option<SendFault>)
    requires |points| == PointsNumber
    ensures var d := AfterProbe(false, ExecSeq(Plan(points), r, feed, fault), fit, fault);
      d.progress.Finished? ==> !d.rema.isDetermining
  {
  }

  /** Whatever `calculateCirclePoints` returned, a reply after probing
      those points is sent only once every buffer went to the planned circle
      point of its position in the probing order, and the last one to the
      fitted centre. */
  lemma ProbeThenReply(asWritten: bool, points: seq<Point3D>, r: Rema, feed: seq<Tick>, fit: FitFn, fault: Option<SendFault>)
    requires |points| == PointsNumber
    ensures var probe := ExecSeq(Plan(points), r, feed, fault);
      var d := AfterProbe(asWritten, probe, fit, fault);
      d.reply.Some? ==> ReplyFollowsPlan(d, points)
  {
    var probe := ExecSeq(Plan(points), r, feed, fault);
    var d := AfterProbe(asWritten, probe, fit, fault);
    if d.reply.Some? {
      PlannedRunTargetsCircle(points, r, feed, fault);
      FollowsPlan(probe.sent, d, points);
    }
  }

  /** The handler once the probing run has returned or thrown: on an
      exception it leaves (releasing the flag only when corrected); otherwise
      it fits the circle, moves to its centre, and replies. */
  function AfterProbe(asWritten: bool, probe: Run, fit: FitFn, fault: Option<SendFault>): (d: Determination)
    ensures d.reply.Some? ==>
      var c := d.reply.value.center;
      && d.thrown.None?
      && d.reply.value.reachedCoords == probe.points
      && (c, d.reply.value.radius) == fit(probe.points)
      && d.sent == probe.sent + [[MoveClosedLoop("XY", c.x, c.y)]]
    ensures (probe.status.Completed? || probe.status.Cancelled?) && d.progress.Finished? && d.thrown.None? ==>
      d.reply.Some?
    ensures (probe.status.Completed? || probe.status.Cancelled?) && !(fault.Some? && fault.value.at == |probe.sent|) ==>
      d.thrown.None? && (d.reply.Some? <==> d.progress.Finished?)
    ensures !d.progress.SpinningOnFlag?
    ensures !asWritten && d.progress.Finished? ==> !d.rema.isDetermining
    ensures asWritten && probe.status.SendFailed? ==> d.rema.isDetermining == probe.rema.isDetermining
    ensures asWritten && d.thrown.Some? ==> d.rema.isDetermining == probe.rema.isDetermining
    ensures d.thrown.Some? ==> d.progress.Finished? && d.reply.None?
    ensures probe.status.SendFailed? ==>
      d.progress.Finished? && d.reply.None? && d.sent == probe.sent && d.thrown == Some(probe.status.what)
  {
    if probe.status.SendFailed? then
      Determination(None, probe.sent, FlagAfterThrow(asWritten, probe.rema), probe.rest, Some(probe.status.what), Finished)
    else if probe.status.Waiting? then
      Determination(None, probe.sent, probe.rema, probe.rest, None, AwaitingTelemetry)
    else
      var fitted := fit(probe.points);
      var back := ExecSeq([GotoCenter(fitted.0)], probe.rema, probe.rest, After(fault, |probe.sent|));
      var sent := probe.sent + back.sent;
      if back.status.SendFailed? then
        SingleStepRun(GotoCenter(fitted.0), probe.rema, probe.rest, After(fault, |probe.sent|));
        AfterFaultsNow(fault, |probe.sent|);
        Determination(None, sent, FlagAfterThrow(asWritten, back.rema), back.rest, Some(back.status.what), Finished)
      else if back.status.Waiting? then
        Determination(None, sent, back.rema, back.rest, None, AwaitingTelemetry)
      else
        SingleStepRun(GotoCenter(fitted.0), probe.rema, probe.rest, After(fault, |probe.sent|));
        Determination(Some(CenterReply(probe.points, fitted.0, fitted.1)), sent,
                      back.rema.(isDetermining := false), back.rest, None, Finished)
  }

  /** `determine_tube_center` as written. */
  function DetermineAsWritten(tubeId: string, session: TubeSession, rema: Rema,
                              circle: CircleFn, fit: FitFn, feed: seq<Tick>, fault: Option<SendFault>): (d: Determination)
    requires |CirclePointsFor(circle, session, tubeId)| == PointsNumber
    ensures d.progress.SpinningOnFlag? <==> rema.isDetermining
    ensures rema.isDetermining ==> d.sent == []
  {
    Determine(true, tubeId, session, rema, circle, fit, feed, fault)
  }

  /** As written, an exception from the first `send_blocking` leaves the
      handler before `is_determining = false`: the handler is over, but the
      flag stays set. No sequence is running that could clear it, so by the
      contract of `DetermineAsWritten` every later request spins on it
      without sending anything. */
  lemma SendFailureLeavesFlagSet(tubeId: string, session: TubeSession, rema: Rema,
                                 circle: CircleFn, fit: FitFn, feed: seq<Tick>, what: string)
    requires tubeId != "" && !rema.isDetermining
    requires |CirclePointsFor(circle, session, tubeId)| == PointsNumber
    ensures ThrewBeforeSending(DetermineAsWritten(tubeId, session, rema, circle, fit, feed, Some(SendFault(0, what))), what, true)
  {
    ThrowOnFirstSend(true, tubeId, session, rema, circle, fit, feed, what);
  }

  /** `determine_tube_center` with the release of `is_determining` made
      unconditional: every request that returns leaves the flag clear. */
  function DetermineTubeCenter(tubeId: string, session: TubeSession, rema: Rema,
                               circle: CircleFn, fit: FitFn, feed: seq<Tick>, fault: Option<SendFault>): (d: Determination)
    requires |CirclePointsFor(circle, session, tubeId)| == PointsNumber
    ensures d.progress.Finished? ==> !d.rema.isDetermining
    ensures d.progress.SpinningOnFlag? <==> rema.isDetermining
    ensures rema.isDetermining ==> d.sent == []
    ensures !rema.isDetermining && tubeId == "" ==> d.progress.Finished? && d.reply.None? && d.sent == []
  {
    CorrectedReleases(tubeId, session, rema, circle, fit, feed, fault);
    Determine(false, tubeId, session, rema, circle, fit, feed, fault)
  }

  /** A reply is sent only after a run without exception whose buffers are
      the planned circle moves, in probing order, followed by the move to
      the fitted centre, and whose boundary points are at most one per
      circle move. */
  predicate ReplyFollowsPlan(d: Determination, points: seq<Point3D>)
    requires d.reply.Some? && |points| == PointsNumber
  {
    var c := d.reply.value.center;
    && d.thrown.None?
    && |d.reply.value.reachedCoords| <= |d.sent| - 1 <= PointsNumber
    && d.sent[|d.sent| - 1] == [MoveClosedLoop("XY", c.x, c.y)]
    && forall k :: 0 <= k < |d.sent| - 1 ==>
         var p := points[OrderIndex(k, PointsNumber)];
         d.sent[k] == [MoveClosedLoop("XY", p.x, p.y)]
  }

  /** A one-step run that completed or was cancelled sent exactly that step;
      one that threw did so on its only send. */
  lemma SingleStepRun(step: SequenceStep, r: Rema, feed: seq<Tick>, fault: Option<SendFault>)
    ensures var run := ExecSeq([step], r, feed, fault);
      run.status.Completed? || run.status.Cancelled? ==> run.sent == [[MoveCommand(step)]]
    ensures ExecSeq([step], r, feed, fault).status.SendFailed? ==> fault.Some? && fault.value.at == 0
  {
    assert [step][1..] == [];
    if !(fault.Some? && fault.value.at == 0) && Wait(r, feed).Exited? && !Wait(r, feed).rema.cancelCmd {
      assert RunSteps([], [MoveCommand(step)], Wait(r, feed).rema, Wait(r, feed).rest, Later(fault)).status == Completed;
    }
  }

  lemma FollowsPlan(probeSent: seq<Buffer>, d: Determination, points: seq<Point3D>)
    requires |points| == PointsNumber && d.reply.Some? && d.thrown.None?
    requires |d.reply.value.reachedCoords| <= |probeSent| <= PointsNumber
    requires forall k :: 0 <= k < |probeSent| ==>
      var p := points[OrderIndex(k, PointsNumber)];
      probeSent[k] == [MoveClosedLoop("XY", p.x, p.y)]
    requires d.sent == probeSent + [[MoveClosedLoop("XY", d.reply.value.center.x, d.reply.value.center.y)]]
    ensures ReplyFollowsPlan(d, points)
  {
    assert forall k :: 0 <= k < |probeSent| ==> d.sent[k] == probeSent[k];
  }

  /** With the correction, a request that failed on a send leaves the flag
      clear, so by the contract of `Determine` the next request does not
      spin. */
  lemma SendFailureReleasesFlag(tubeId: string, session: TubeSession, rema: Rema,
                                circle: CircleFn, fit: FitFn, feed: seq<Tick>, what: string)
    requires tubeId != "" && !rema.isDetermining
    requires |CirclePointsFor(circle, session, tubeId)| == PointsNumber
    ensures ThrewBeforeSending(DetermineTubeCenter(tubeId, session, rema, circle, fit, feed, Some(SendFault(0, what))), what, false)
  {
    ThrowOnFirstSend(false, tubeId, session, rema, circle, fit, feed, what);
  }

  /** The handler finished by the exception `what` before any buffer went
      out, leaving `is_determining` equal to `flag`. */
  predicate ThrewBeforeSending(d: Determination, what: string, flag: bool)
  {
    d.progress.Finished? && d.thrown == Some(what) && d.sent == [] && d.rema.isDetermining == flag
  }

  lemma ThrowOnFirstSend(asWritten: bool, tubeId: string, session: TubeSession, rema: Rema,
                         circle: CircleFn, fit: FitFn, feed: seq<Tick>, what: string)
    requires tubeId != "" && !rema.isDetermining
    requires |CirclePointsFor(circle, session, tubeId)| == PointsNumber
    ensures Determine(asWritten, tubeId, session, rema, circle, fit, feed, Some(SendFault(0, what)))
         == Determination(None, [], FlagAfterThrow(asWritten, rema.(cancelCmd := false, isDetermining := true)), feed, Some(what), Finished)
  {
    var r := rema.(cancelCmd := false, isDetermining := true);
    FirstSendFails(Plan(CirclePointsFor(circle, session, tubeId)), r, feed, what);
  }

  /** A send that throws at once ends the sequence before anything is sent. */
  lemma FirstSendFails(steps: seq<SequenceStep>, r: Rema, feed: seq<Tick>, what: string)
    requires |steps| > 0
    ensures ExecSeq(steps, r, feed, Some(SendFault(0, what))) == Run([], [], [], r, feed, SendFailed(what))
  {
  }
}

=== FILE: net_commands.dfy ===
/** The network commands: the `tube` JSON mapping, the tubesheet loader,
    the two sorted directory listings, the session commands and the
    `commands` table with its dispatcher `cmd_execute`. The file system,
    the CSV reader and the inspection-session class are replaced by an
    environment of their results. An exception leaving a command is a
    `Failure` carrying its `what()` text; `cmd_execute` catches nothing. */
module NetCommands {
  import opened Wrappers
  import opened Json
  import opened Ordering
  import opened TubeIds

  // --- the tube record and its JSON mapping ---

  /** `struct tube`; the `float` coordinates are idealised as `real`. */
  datatype Tube = Tube(
    xLabel: string, yLabel: string,
    clX: real, clY: real, hlX: real, hlY: real,
    tubeId: Int32,
    color: string, inspPlan: string)

  /** The in-class initialisers of `color` and `insp_plan`. */
  const DefaultColor: string := "white"
  const DefaultInspPlan: string := ""

  /** The seven keys `to_json` writes. */
  const TubeKeys: set<string> := {"x_label", "y_label", "cl_x", "cl_y", "hl_x", "hl_y", "tube_id"}

  /** `to_json(j, tube)`: seven fields; `color` and `insp_plan` are not
      written. */
  function TubeToJson(t: Tube): (j: Json)
    ensures j.JObject? && j.fields.Keys == TubeKeys
    ensures j.fields["tube_id"] == JInt(t.tubeId)
    ensures j.fields["x_label"] == JString(t.xLabel) && j.fields["y_label"] == JString(t.yLabel)
    ensures j.fields["cl_x"] == JFloat(t.clX) && j.fields["cl_y"] == JFloat(t.clY)
    ensures j.fields["hl_x"] == JFloat(t.hlX) && j.fields["hl_y"] == JFloat(t.hlY)
  {
    JObject(map[
      "x_label" := JString(t.xLabel), "y_label" := JString(t.yLabel),
      "cl_x" := JFloat(t.clX), "cl_y" := JFloat(t.clY),
      "hl_x" := JFloat(t.hlX), "hl_y" := JFloat(t.hlY),
      "tube_id" := JInt(t.tubeId)])
  }

  /** `j.at(key)`: type_error 304 on a value that is not an object,
      out_of_range 403 on a missing key. */
  function At(j: Json, key: string): (r: Result<Json, string>)
    ensures r.Success? <==> j.JObject? && key in j.fields
    ensures r.Success? ==> r.value == j.fields[key]
  {
    if !j.JObject? then Failure("[json.exception.type_error.304] cannot use at() with " + TypeName(j))
    else if key !in j.fields then Failure("[json.exception.out_of_range.403] key '" + key + "' not found")
    else Success(j.fields[key])
  }

  function NotANumber(j: Json): string
  {
    "[json.exception.type_error.302] type must be number, but is " + TypeName(j)
  }

  /** `get_to` a `float`: any number or boolean converts. */
  function GetReal(j: Json): (r: Result<real, string>)
    ensures r.Success? <==> j.JInt? || j.JFloat? || j.JBool?
    ensures j.JFloat? ==> r == Success(j.f)
  {
    match j
    case JInt(i) => Success(i as real)
    case JFloat(f) => Success(f)
    case JBool(b) => Success(if b then 1.0 else 0.0)
    case _ => Failure(NotANumber(j))
  }

  /** Truncation toward zero, as `static_cast` from floating point. */
  function Truncate(f: real): (i: int)
    ensures f >= 0.0 ==> i as real <= f < i as real + 1.0
    ensures f < 0.0 ==> i as real - 1.0 < f <= i as real
  {
    if f >= 0.0 then f.Floor else -((-f).Floor)
  }

  /** A conversion to a 32-bit `int`, which keeps the low 32 bits. */
  function Wrap32(i: int): (w: Int32)
    ensures IntMin <= i <= IntMax ==> w == i
    ensures (w - i) % 0x1_0000_0000 == 0
  {
    (i - IntMin) % 0x1_0000_0000 + IntMin
  }

  /** `get_to` an `int`. */
  function GetInt(j: Json): (r: Result<Int32, string>)
    ensures r.Success? <==> j.JInt? || j.JFloat? || j.JBool?
    ensures j.JInt? && IntMin <= j.i <= IntMax ==> r == Success(j.i)
  {
    match j
    case JInt(i) => Success(Wrap32(i))
    case JFloat(f) => Success(Wrap32(Truncate(f)))
    case JBool(b) => Success(if b then 1 else 0)
    case _ => Failure(NotANumber(j))
  }

  /** `from_json(j, t)`: the seven fields are read in declaration order and
      overwrite those of `t`; `color` and `insp_plan` keep `t`'s values. The
      first missing or ill-typed field throws. */
  function TubeFromJson(j: Json, t: Tube): (r: Result<Tube, string>)
    ensures r.Success? ==> r.value.color == t.color && r.value.inspPlan == t.inspPlan
    ensures r.Success? ==> j.JObject? && TubeKeys <= j.fields.Keys
  {
    var xLabel :- At(j, "x_label");
    var xLabel :- GetString(xLabel);
    var yLabel :- At(j, "y_label");
    var yLabel :- GetString(yLabel);
    var clX :- At(j, "cl_x");
    var clX :- GetReal(clX);
    var clY :- At(j, "cl_y");
    var clY :- GetReal(clY);
    var hlX :- At(j, "hl_x");
    var hlX :- GetReal(hlX);
    var hlY :- At(j, "hl_y");
    var hlY :- GetReal(hlY);
    var tubeId :- At(j, "tube_id");
    var tubeId :- GetInt(tubeId);
    Success(t.(xLabel := xLabel, yLabel := yLabel, clX := clX, clY := clY,
               hlX := hlX, hlY := hlY, tubeId := tubeId))
  }

  /** A tube constructed with the initialisers of `color` and `insp_plan`. */
  function NewTube(xLabel: string, yLabel: string, clX: real, clY: real, hlX: real, hlY: real, tubeId: Int32): (t: Tube)
    ensures t.color == "white" && t.inspPlan == ""
  {
    Tube(xLabel, yLabel, clX, clY, hlX, hlY, tubeId, DefaultColor, DefaultInspPlan)
  }

  /** Reading back a serialised tube restores its seven serialised fields;
      `color` and `insp_plan` are those of the tube read into. */
  lemma TubeRoundTrip(t: Tube, into: Tube)
    ensures TubeFromJson(TubeToJson(t), into) == Success(t.(color := into.color, inspPlan := into.inspPlan))
  {
  }

  /** `get<tube>()` reads into a default tube: the colour comes back
      "white" and the plan empty, whatever they were before. */
  lemma TubeRoundTripForgetsColor(t: Tube)
    ensures var back := TubeFromJson(TubeToJson(t), NewTube("", "", 0.0, 0.0, 0.0, 0.0, 0));
      && back.Success?
      && back.value.color == "white" && back.value.inspPlan == ""
      && (back.value == t <==> t.color == "white" && t.inspPlan == "")
  {
    TubeRoundTrip(t, NewTube("", "", 0.0, 0.0, 0.0, 0.0, 0));
  }

  /** A missing key is reported by name. */
  lemma MissingTubeKey(j: Json, t: Tube)
    requires j.JObject? && "x_label" !in j.fields
    ensures TubeFromJson(j, t) == Failure("[json.exception.out_of_range.403] key 'x_label' not found")
  {
    assert At(j, "x_label") == Failure("[json.exception.out_of_range.403] key '" + "x_label" + "' not found");
    assert "[json.exception.out_of_range.403] key '" + "x_label" + "' not found"
        == "[json.exception.out_of_range.403] key 'x_label' not found";
  }

  // --- hx_load_tubesheet ---

  /** One row of `tubesheet.csv` as the CSV reader delivers it. */
  datatype CsvRow = CsvRow(xLabel: string, yLabel: string, clX: real, clY: real, hlX: real, hlY: real, tubeId: string)

  /** The tube a row becomes, once its id parsed. */
  function RowTube(row: CsvRow, id: Int32): Tube
  {
    NewTube(row.xLabel, row.yLabel, row.clX, row.clY, row.hlX, row.hlY, id)
  }

  /** The tubes of the rows in order; the first row whose id does not
      parse aborts the load with that exception. */
  function ParseRows(rows: seq<CsvRow>): (r: Result<seq<Tube>, string>)
    ensures r.Success? <==> forall i :: 0 <= i < |rows| ==> ParseTubeId(rows[i].tubeId).Success?
    ensures r.Success? ==> |r.value| == |rows|
    ensures r.Success? ==> forall i :: 0 <= i < |rows| ==>
      r.value[i] == RowTube(rows[i], ParseTubeId(rows[i].tubeId).value)
  {
    if |rows| == 0 then Success([])
    else
      match ParseTubeId(rows[0].tubeId)
      case Failure(e) => Failure(What(e))
      case Success(id) =>
        var rest :- ParseRows(rows[1..]);
        Success([RowTube(rows[0], id)] + rest)
  }

  /** `hx_load_tubesheet_cmd`: the array of the serialised tubes, `[]` for
      a sheet without rows. */
  function HxLoadTubesheet(rows: seq<CsvRow>): (r: Result<Json, string>)
    ensures r.Success? <==> ParseRows(rows).Success?
    ensures r.Success? ==> r.value.JArray? && |r.value.items| == |rows|
  {
    var tubes :- ParseRows(rows);
    Success(JArray(seq(|tubes|, i requires 0 <= i < |tubes| => TubeToJson(tubes[i]))))
  }

  /** Each element of the loaded tubesheet reads back as the tube of its
      row: the labels and coordinates of the row, the id parsed from the
      row's tube id, colour "white" and no plan. */
  lemma TubesheetReadsBack(rows: seq<CsvRow>, i: nat)
    requires HxLoadTubesheet(rows).Success? && i < |rows|
    ensures var id := ParseTubeId(rows[i].tubeId);
      && id.Success?
      && TubeFromJson(HxLoadTubesheet(rows).value.items[i], NewTube("", "", 0.0, 0.0, 0.0, 0.0, 0))
           == Success(RowTube(rows[i], id.value))
  {
    var tubes := ParseRows(rows).value;
    assert HxLoadTubesheet(rows).value.items[i] == TubeToJson(tubes[i]);
    TubeRoundTrip(tubes[i], NewTube("", "", 0.0, 0.0, 0.0, 0.0, 0));
  }

  // --- the directory listings ---

  /** A directory entry: its file name, its kind, and its last-write time
      as `put_time(gmt, "%A, %d %B %Y %H:%M")` formats it. */
  datatype DirEntry = DirEntry(name: string, isDirectory: bool, isRegularFile: bool, modified: string)

  /** The listing element for an entry: an object of two string fields.
      `first` is stored under `key1`, the key that sorts first. */
  function Item(e: Entry, key1: string, key2: string): (j: Json)
    requires StrLeq(key1, key2) && key1 != key2
    ensures j.JObject? && j.fields.Keys == {key1, key2}
  {
    JObject(map[key1 := JString(e.first), key2 := JString(e.second)])
  }

  /** Reading a listing element back into an entry. */
  function EntryOf(j: Json, key1: string, key2: string): Entry
  {
    if j.JObject? && key1 in j.fields && key2 in j.fields
       && j.fields[key1].JString? && j.fields[key2].JString?
    then Entry(j.fields[key1].s, j.fields[key2].s)
    else Entry("", "")
  }

  function EntriesOf(items: seq<Json>, key1: string, key2: string): (es: seq<Entry>)
    ensures |es| == |items|
    ensures forall i :: 0 <= i < |items| ==> es[i] == EntryOf(items[i], key1, key2)
  {
    seq(|items|, i requires 0 <= i < |items| => EntryOf(items[i], key1, key2))
  }

  /** A sorted listing: `null` when nothing was pushed, otherwise the
      array of the elements in the order `std::sort` leaves them. Read back,
      the array is a sorted rearrangement of the entries. */
  function Listing(entries: seq<Entry>, key1: string, key2: string): (j: Json)
    requires StrLeq(key1, key2) && key1 != key2
    ensures j.JNull? <==> |entries| == 0
    ensures |entries| > 0 ==> j.JArray? && |j.items| == |entries|
    ensures j.JArray? ==>
      && Sorted(EntriesOf(j.items, key1, key2))
      && multiset(EntriesOf(j.items, key1, key2)) == multiset(entries)
    ensures j.JArray? ==> forall i :: 0 <= i < |j.items| ==> j.items[i].JObject? && j.items[i].fields.Keys == {key1, key2}
  {
    if |entries| == 0 then JNull
    else
      var sorted := Sort(entries);
      var items := seq(|sorted|, i requires 0 <= i < |sorted| => Item(sorted[i], key1, key2));
      assert EntriesOf(items, key1, key2) == sorted;
      JArray(items)
  }

  /** The entries `hx_list_cmd` pushes: one per directory, its name under
      both `"abreb"` and `"name"`. */
  function HxEntries(dir: seq<DirEntry>): (es: seq<Entry>)
    ensures |es| <= |dir|
    ensures forall e :: e in es <==> exists i :: 0 <= i < |dir| && dir[i].isDirectory && e == Entry(dir[i].name, dir[i].name)
    ensures |es| == 0 <==> forall i :: 0 <= i < |dir| ==> !dir[i].isDirectory
  {
    if |dir| == 0 then []
    else
      var rest := HxEntries(dir[1..]);
      assert forall i :: 0 <= i < |dir[1..]| ==> dir[1..][i] == dir[i + 1];
      (if dir[0].isDirectory then [Entry(dir[0].name, dir[0].name)] else []) + rest
  }

  /** The entries `insp_sessions_list_cmd` pushes: one per regular file,
      ordered by its formatted date and then by its name. */
  function SessionEntries(dir: seq<DirEntry>): (es: seq<Entry>)
    ensures |es| <= |dir|
    ensures forall e :: e in es <==> exists i :: 0 <= i < |dir| && dir[i].isRegularFile && e == Entry(dir[i].modified, dir[i].name)
    ensures |es| == 0 <==> forall i :: 0 <= i < |dir| ==> !dir[i].isRegularFile
  {
    if |dir| == 0 then []
    else
      var rest := SessionEntries(dir[1..]);
      assert forall i :: 0 <= i < |dir[1..]| ==> dir[1..][i] == dir[i + 1];
      (if dir[0].isRegularFile then [Entry(dir[0].modified, dir[0].name)] else []) + rest
  }

  /** The directory entries are pushed one by one as the iteration meets
      them: the entries of two stretches of the folder are those of the
      first followed by those of the second, and a single entry contributes
      itself when it is a directory and nothing otherwise. Together these
      fix `HxEntries` on every folder. */
  lemma {:induction false} HxEntriesAppend(a: seq<DirEntry>, b: seq<DirEntry>)
    ensures HxEntries(a + b) == HxEntries(a) + HxEntries(b)
    ensures |a| == 1 ==> HxEntries(a) == if a[0].isDirectory then [Entry(a[0].name, a[0].name)] else []
    decreases |a|
  {
    if |a| == 0 {
      assert a + b == b;
    } else {
      var head := if a[0].isDirectory then [Entry(a[0].name, a[0].name)] else [];
      assert (a + b)[0] == a[0] && (a + b)[1..] == a[1..] + b;
      HxEntriesAppend(a[1..], b);
      calc {
        HxEntries(a + b);
        head + HxEntries(a[1..] + b);
        head + (HxEntries(a[1..]) + HxEntries(b));
        { SeqAssoc(head, HxEntries(a[1..]), HxEntries(b)); }
        (head + HxEntries(a[1..])) + HxEntries(b);
      }
      if |a| == 1 {
        assert a[1..] == [];
      }
    }
  }

  /** The same for the session files: one entry per regular file, in the
      order of the folder. */
  lemma {:induction false} SessionEntriesAppend(a: seq<DirEntry>, b: seq<DirEntry>)
    ensures SessionEntries(a + b) == SessionEntries(a) + SessionEntries(b)
    ensures |a| == 1 ==> SessionEntries(a) == if a[0].isRegularFile then [Entry(a[0].modified, a[0].name)] else []
    decreases |a|
  {
    if |a| == 0 {
      assert a + b == b;
    } else {
      var head := if a[0].isRegularFile then [Entry(a[0].modified, a[0].name)] else [];
      assert (a + b)[0] == a[0] && (a + b)[1..] == a[1..] + b;
      SessionEntriesAppend(a[1..], b);
      calc {
        SessionEntries(a + b);
        head + SessionEntries(a[1..] + b);
        head + (SessionEntries(a[1..]) + SessionEntries(b));
        { SeqAssoc(head, SessionEntries(a[1..]), SessionEntries(b)); }
        (head + SessionEntries(a[1..])) + SessionEntries(b);
      }
      if |a| == 1 {
        assert a[1..] == [];
      }
    }
  }

  /** `hx_list_cmd`. */
  function HxList(dir: seq<DirEntry>): (j: Json)
    ensures j.JNull? <==> forall i :: 0 <= i < |dir| ==> !dir[i].isDirectory
  {
    var es := HxEntries(dir);
    Listing(es, "abreb", "name")
  }

  /** `insp_sessions_list_cmd`. */
  function InspSessionsList(dir: seq<DirEntry>): (j: Json)
    ensures j.JNull? <==> forall i :: 0 <= i < |dir| ==> !dir[i].isRegularFile
  {
    var es := SessionEntries(dir);
    Listing(es, "file_date", "file_name")
  }

  /** The listing keys are in the order `std::map` keeps them. */
  lemma ListingKeysOrdered()
    ensures StrLeq("abreb", "name") && StrLeq("file_date", "file_name")
  {
  }

  /** The session listing orders by the formatted date first, and that text
      starts with the weekday name: a session written on a Friday is listed
      before one written on the Monday before it. */
  lemma SessionsOrderedByWeekdayName(name1: string, name2: string)
    ensures var friday := DirEntry(name1, false, true, "Friday, 05 January 2024 10:00");
      var monday := DirEntry(name2, false, true, "Monday, 01 January 2024 10:00");
      var j := InspSessionsList([monday, friday]);
      && j.JArray? && |j.items| == 2
      && EntriesOf(j.items, "file_date", "file_name") == [Entry(friday.modified, name1), Entry(monday.modified, name2)]
  {
    var friday := DirEntry(name1, false, true, "Friday, 05 January 2024 10:00");
    var monday := DirEntry(name2, false, true, "Monday, 01 January 2024 10:00");
    var f, m := Entry(friday.modified, name1), Entry(monday.modified, name2);
    TwoSessionFiles(monday, friday);
    FridayFirst(f, m);
    assert multiset([m, f]) == multiset([f, m]);
    ListingIsSortedEntries([m, f], "file_date", "file_name", [f, m]);
  }

  lemma TwoSessionFiles(a: DirEntry, b: DirEntry)
    requires a.isRegularFile && b.isRegularFile
    ensures SessionEntries([a, b]) == [Entry(a.modified, a.name), Entry(b.modified, b.name)]
  {
    assert [a, b][1..] == [b];
    assert [b][1..] == [];
  }

  /** A listing read back is the one sorted arrangement of its entries. */
  lemma ListingIsSortedEntries(entries: seq<Entry>, key1: string, key2: string, sorted: seq<Entry>)
    requires StrLeq(key1, key2) && key1 != key2
    requires |entries| > 0 && Sorted(sorted) && multiset(sorted) == multiset(entries)
    ensures Listing(entries, key1, key2).JArray?
    ensures EntriesOf(Listing(entries, key1, key2).items, key1, key2) == sorted
  {
    SortedUnique(EntriesOf(Listing(entries, key1, key2).items, key1, key2), sorted);
  }

  lemma FridayFirst(f: Entry, m: Entry)
    requires f.first == "Friday, 05 January 2024 10:00" && m.first == "Monday, 01 January 2024 10:00"
    ensures Sorted([f, m])
  {
    assert f.first[0] == 'F' && m.first[0] == 'M';
    assert EntryLeq(f, m);
  }

  // --- the session commands ---

  /** The part of `current_session` the commands read and replace. */
  datatype Session = Session(loaded: bool, tubesheetSvg: string, selectedPlan: string, inspPlans: seq<string>)

  /** The results of the calls the commands make outside this model: the
      contents of `./HXs` and `./insp_sessions/`, the rows of
      `tubesheet.csv`, the outcome of building and saving a new session
      (its plan log, or the exception), and the outcome of loading one. */
  datatype NewSession = CreationThrew(what: string) | CreationDone(session: Session, logs: string)
  datatype Loading = LoadThrew(what: string) | LoadDone(session: Session)
  datatype Env = Env(hxDir: seq<DirEntry>, sessionsDir: seq<DirEntry>, tubesheet: seq<CsvRow>,
                     creation: NewSession, loading: Loading)

  /** A command's result and `current_session` afterwards. */
  datatype Reply = Reply(res: Json, current: Session)

  /** `std::filesystem::path(name)` is empty, or ends in a separator and so
      has no file name. */
  predicate NoFilename(name: string)
  {
    name == "" || name[|name| - 1] == '/'
  }

  /** `session_create_cmd`. The name is read before anything is checked,
      so a missing or non-string name escapes as an exception. The file name
      is checked before the HX; a non-string `hx` passes the emptiness check
      and fails inside the `try`, which turns it into a rejection. */
  function SessionCreate(pars: Json, env: Env, current: Session): (r: Result<Reply, string>)
    ensures r.Failure? <==> StringField(pars, "session_name").Failure?
    ensures r.Success? && NoFilename(StringField(pars, "session_name").value) ==>
      r.value == Reply(Rejection("no filename specified"), current)
    ensures r.Success? && !NoFilename(StringField(pars, "session_name").value) && IsEmpty(Member(pars, "hx")) ==>
      r.value == Reply(Rejection("no HX selected"), current)
    ensures r.Success? && r.value.current != current ==>
      env.creation.CreationDone? && r.value.current == env.creation.session
  {
    var name :- StringField(pars, "session_name");
    if NoFilename(name) then Success(Reply(Rejection("no filename specified"), current))
    else
      var hx := Member(pars, "hx");
      if IsEmpty(hx) then Success(Reply(Rejection("no HX selected"), current))
      else if !hx.JString? then Success(Reply(Rejection(NotAString(hx)), current))
      else
        match env.creation
        case CreationThrew(what) => Success(Reply(Rejection(what), current))
        case CreationDone(session, logs) =>
          Success(Reply(JObject(map["logs" := JString(logs), "success" := JBool(true)]), session))
  }

  /** `success` is true exactly when a new session became current, and
      then the reply carries the plan log. */
  lemma SessionCreateSucceedsOnlyByCreating(pars: Json, env: Env, current: Session)
    requires SessionCreate(pars, env, current).Success?
    ensures var r := SessionCreate(pars, env, current).value;
      && r.res.JObject? && "success" in r.res.fields && "logs" in r.res.fields
      && (r.res.fields["success"] == JBool(true) <==>
            && !NoFilename(StringField(pars, "session_name").value)
            && Member(pars, "hx").JString?
            && env.creation.CreationDone?)
      && (r.res.fields["success"] == JBool(true) ==>
            r.current == env.creation.session && r.res.fields["logs"] == JString(env.creation.logs))
      && (r.res.fields["success"] == JBool(false) ==> r.current == current)
  {
  }

  /** `session_load_cmd`: an empty name is refused and `current_session`
      is left alone; otherwise the load's exception, if any, escapes. */
  function SessionLoad(pars: Json, env: Env, current: Session): (r: Result<Reply, string>)
    ensures StringField(pars, "session_name").Failure? ==> r.Failure?
    ensures StringField(pars, "session_name") == Success("") ==>
      r == Success(Reply(Rejection("no session selected"), current))
    ensures StringField(pars, "session_name").Success? && StringField(pars, "session_name").value != "" ==>
      match env.loading
      case LoadThrew(what) => r == Failure(what)
      case LoadDone(session) => r == Success(Reply(JObject(map["success" := JBool(true)]), session))
  {
    var name :- StringField(pars, "session_name");
    if name == "" then Success(Reply(Rejection("no session selected"), current))
    else
      match env.loading
      case LoadThrew(what) => Failure(what)
      case LoadDone(session) => Success(Reply(JObject(map["success" := JBool(true)]), session))
  }

  /** `session_info_cmd`: an empty object unless a session is loaded; then
      its svg path, its selected plan and its plan names in the session's
      key order. */
  function SessionInfo(current: Session): (j: Json)
    ensures j.JObject?
    ensures !current.loaded <==> |j.fields| == 0
    ensures current.loaded ==>
      && j.fields.Keys == {"tubesheet_svg_path", "last_selected_plan", "inspection_plans"}
      && j.fields["inspection_plans"].JArray?
      && |j.fields["inspection_plans"].items| == |current.inspPlans|
      && forall i :: 0 <= i < |current.inspPlans| ==>
           j.fields["inspection_plans"].items[i] == JString(current.inspPlans[i])
  {
    if !current.loaded then JObject(map[])
    else
      var plans := seq(|current.inspPlans|, i requires 0 <= i < |current.inspPlans| => JString(current.inspPlans[i]));
      var fields := map["tubesheet_svg_path" := JString(current.tubesheetSvg),
                        "last_selected_plan" := JString(current.selectedPlan),
                        "inspection_plans" := JArray(plans)];
      assert "tubesheet_svg_path" in fields;
      JObject(fields)
  }

  // --- the command table ---

  /** A command: its parameters, the environment and `current_session` in;
      its result and `current_session` out. */
  type Handler = (Json, Env, Session) -> Result<Reply, string>

  function HxListCmd(pars: Json, env: Env, current: Session): Result<Reply, string>
  {
    Success(Reply(HxList(env.hxDir), current))
  }

  function HxLoadTubesheetCmd(pars: Json, env: Env, current: Session): Result<Reply, string>
  {
    var res :- HxLoadTubesheet(env.tubesheet);
    Success(Reply(res, current))
  }

  function InspSessionsListCmd(pars: Json, env: Env, current: Session): Result<Reply, string>
  {
    Success(Reply(InspSessionsList(env.sessionsDir), current))
  }

  function SessionInfoCmd(pars: Json, env: Env, current: Session): Result<Reply, string>
  {
    Success(Reply(SessionInfo(current), current))
  }

  /** The `commands` table. */
  function Commands(): (table: map<string, Handler>)
    ensures table.Keys == {"hx_list", "hx_load_tubesheet", "insp_sessions_list",
                           "session_create", "session_load", "session_info"}
  {
    map["hx_list" := HxListCmd,
        "hx_load_tubesheet" := HxLoadTubesheetCmd,
        "insp_sessions_list" := InspSessionsListCmd,
        "session_create" := SessionCreate,
        "session_load" := SessionLoad,
        "session_info" := SessionInfoCmd]
  }

  /** `cmd_execute`: an unknown name yields `null` and runs nothing. */
  function CmdExecute(command: string, par: Json, env: Env, current: Session): (r: Result<Reply, string>)
    ensures command !in Commands() ==> r == Success(Reply(JNull, current))
  {
    var table := Commands();
    if command in table then table[command](par, env, current) else Success(Reply(JNull, current))
  }

  /** Each registered name runs exactly its own handler on the given
      parameters, and its result is returned unchanged. */
  lemma Dispatch(par: Json, env: Env, current: Session)
    ensures CmdExecute("hx_list", par, env, current) == HxListCmd(par, env, current)
    ensures CmdExecute("hx_load_tubesheet", par, env, current) == HxLoadTubesheetCmd(par, env, current)
    ensures CmdExecute("insp_sessions_list", par, env, current) == InspSessionsListCmd(par, env, current)
    ensures CmdExecute("session_create", par, env, current) == SessionCreate(par, env, current)
    ensures CmdExecute("session_load", par, env, current) == SessionLoad(par, env, current)
    ensures CmdExecute("session_info", par, env, current) == SessionInfoCmd(par, env, current)
  {
    var t := Commands();
    assert t["hx_list"] == HxListCmd && t["hx_load_tubesheet"] == HxLoadTubesheetCmd;
    assert t["insp_sessions_list"] == InspSessionsListCmd && t["session_create"] == SessionCreate;
    assert t["session_load"] == SessionLoad && t["session_info"] == SessionInfoCmd;
  }

  /** Only `session_create` and `session_load` can replace
      `current_session`; the listings, the tubesheet and the info leave it
      as it was. */
  lemma OnlySessionCommandsChangeSession(command: string, par: Json, env: Env, current: Session)
    requires command != "session_create" && command != "session_load"
    requires CmdExecute(command, par, env, current).Success?
    ensures CmdExecute(command, par, env, current).value.current == current
  {
  }
}

=== FILE: ordering.dfy ===
/** The order `std::sort` uses on the directory listings. `std::string`'s
    `operator<` is the lexicographic order on characters, and two JSON
    objects with the same keys compare by their values taken in key order,
    so each listing entry is ordered as a pair of strings. */
module Ordering {

  /** `a <= b` in the lexicographic order of `std::string`. */
  predicate StrLeq(a: string, b: string)
    decreases |a|
  {
    if |a| == 0 then true
    else if |b| == 0 then false
    else if a[0] != b[0] then a[0] < b[0]
    else StrLeq(a[1..], b[1..])
  }

  lemma {:induction false} StrLeqReflexive(a: string)
    ensures StrLeq(a, a)
    decreases |a|
  {
    if |a| > 0 {
      StrLeqReflexive(a[1..]);
    }
  }

  lemma {:induction false} StrLeqTotal(a: string, b: string)
    ensures StrLeq(a, b) || StrLeq(b, a)
    decreases |a|
  {
    if |a| > 0 && |b| > 0 && a[0] == b[0] {
      StrLeqTotal(a[1..], b[1..]);
    }
  }

  lemma {:induction false} StrLeqAntisymmetric(a: string, b: string)
    requires StrLeq(a, b) && StrLeq(b, a)
    ensures a == b
    decreases |a|
  {
    if |a| > 0 {
      StrLeqAntisymmetric(a[1..], b[1..]);
      assert a == [a[0]] + a[1..];
      assert b == [b[0]] + b[1..];
    }
  }

  lemma {:induction false} StrLeqTransitive(a: string, b: string, c: string)
    requires StrLeq(a, b) && StrLeq(b, c)
    ensures StrLeq(a, c)
    decreases |a|
  {
    if |a| > 0 && |b| > 0 && |c| > 0 && a[0] == b[0] && b[0] == c[0] {
      StrLeqTransitive(a[1..], b[1..], c[1..]);
    }
  }

  /** A listing entry as `std::sort` compares it: by its first value, then
      by its second. */
  datatype Entry = Entry(first: string, second: string)

  predicate EntryLeq(p: Entry, q: Entry)
  {
    if p.first != q.first then StrLeq(p.first, q.first) else StrLeq(p.second, q.second)
  }

  lemma EntryLeqTotal(p: Entry, q: Entry)
    ensures EntryLeq(p, q) || EntryLeq(q, p)
  {
    StrLeqTotal(p.first, q.first);
    StrLeqTotal(p.second, q.second);
  }

  lemma EntryLeqTransitive(p: Entry, q: Entry, s: Entry)
    requires EntryLeq(p, q) && EntryLeq(q, s)
    ensures EntryLeq(p, s)
  {
    if p.first != q.first && q.first != s.first {
      StrLeqTransitive(p.first, q.first, s.first);
      if p.first == s.first {
        StrLeqAntisymmetric(p.first, q.first);
      }
    } else if p.first == q.first && q.first == s.first {
      StrLeqTransitive(p.second, q.second, s.second);
    }
  }

  lemma EntryLeqAntisymmetric(p: Entry, q: Entry)
    requires EntryLeq(p, q) && EntryLeq(q, p)
    ensures p == q
  {
    if p.first != q.first {
      StrLeqAntisymmetric(p.first, q.first);
    } else {
      StrLeqAntisymmetric(p.second, q.second);
    }
  }

  predicate Sorted(s: seq<Entry>)
  {
    forall i, j :: 0 <= i < j < |s| ==> EntryLeq(s[i], s[j])
  }

  /** `e` placed before the first entry that is not below it. */
  function Insert(e: Entry, s: seq<Entry>): (r: seq<Entry>)
    requires Sorted(s)
    ensures Sorted(r)
    ensures multiset(r) == multiset(s) + multiset{e}
    ensures |r| == |s| + 1
  {
    if |s| == 0 then [e]
    else if EntryLeq(e, s[0]) then
      InsertFront(e, s);
      [e] + s
    else
      var tail := Insert(e, s[1..]);
      EntryLeqTotal(e, s[0]);
      InsertBehind(e, s, tail);
      assert s == [s[0]] + s[1..];
      [s[0]] + tail
  }

  lemma InsertFront(e: Entry, s: seq<Entry>)
    requires |s| > 0 && Sorted(s) && EntryLeq(e, s[0])
    ensures Sorted([e] + s)
  {
    var r := [e] + s;
    forall i, j | 0 <= i < j < |r|
      ensures EntryLeq(r[i], r[j])
    {
      if i == 0 && j > 1 {
        EntryLeqTransitive(e, s[0], s[j - 1]);
      }
    }
  }

  lemma InsertBehind(e: Entry, s: seq<Entry>, tail: seq<Entry>)
    requires |s| > 0 && Sorted(s) && EntryLeq(s[0], e)
    requires Sorted(tail) && multiset(tail) == multiset(s[1..]) + multiset{e}
    ensures Sorted([s[0]] + tail)
  {
    var r := [s[0]] + tail;
    forall i, j | 0 <= i < j < |r|
      ensures EntryLeq(r[i], r[j])
    {
      if i == 0 {
        var x := tail[j - 1];
        assert x in multiset(tail);
        assert x in multiset(s[1..]) || x == e;
        if x == e {
        } else {
          var k :| 0 <= k < |s[1..]| && s[1..][k] == x;
          assert s[k + 1] == x;
        }
      }
    }
  }

  /** Insertion sort: a sorted permutation of the input. */
  function Sort(s: seq<Entry>): (r: seq<Entry>)
    ensures Sorted(r)
    ensures multiset(r) == multiset(s)
    ensures |r| == |s|
  {
    if |s| == 0 then []
    else
      assert s == [s[0]] + s[1..];
      Insert(s[0], Sort(s[1..]))
  }

  /** Two sorted arrangements of the same entries are the same sequence, so
      the listing does not depend on the order the directory yields its
      entries in. */
  lemma {:induction false} SortedUnique(a: seq<Entry>, b: seq<Entry>)
    requires Sorted(a) && Sorted(b) && multiset(a) == multiset(b)
    ensures a == b
    decreases |a|
  {
    assert |a| == |multiset(a)| == |b|;
    if |a| > 0 {
      HeadsAgree(a, b);
      Behead(a);
      Behead(b);
      SortedUnique(a[1..], b[1..]);
    }
  }

  lemma Behead(a: seq<Entry>)
    requires |a| > 0
    ensures a == [a[0]] + a[1..]
    ensures multiset(a[1..]) == multiset(a) - multiset{a[0]}
  {
    assert a == [a[0]] + a[1..];
  }

  /** Sorted arrangements of the same entries start with the same entry. */
  lemma HeadsAgree(a: seq<Entry>, b: seq<Entry>)
    requires Sorted(a) && Sorted(b) && multiset(a) == multiset(b) && |a| > 0
    ensures |b| > 0 && a[0] == b[0]
  {
    assert a[0] in multiset(b);
    var i :| 0 <= i < |b| && b[i] == a[0];
    assert b[0] in multiset(a);
    var j :| 0 <= j < |a| && a[j] == b[0];
    if i != 0 && j != 0 {
      assert EntryLeq(b[0], b[i]);
      assert EntryLeq(a[0], a[j]);
      EntryLeqAntisymmetric(a[0], b[0]);
    }
  }

  /** The listing is the same whatever order the entries come in. */
  lemma SortIgnoresInputOrder(s: seq<Entry>, t: seq<Entry>)
    requires multiset(s) == multiset(t)
    ensures Sort(s) == Sort(t)
  {
    SortedUnique(Sort(s), Sort(t));
  }
}

=== FILE: planner.dfy ===
/** The planning half of `determine_tube_center`: unit scale, probe radius,
    the step-2-modulo-n probing order of the circle points, and one `"XY"`
    sequence step per point. */
module Planner {
  import opened Wrappers
  import opened Points
  import opened Sequencer

  /** `points_number`; the source asserts at compile time that it is odd. */
  const PointsNumber: nat := 5

  /** The tube data of the current inspection session that the planner
      reads: its unit, the tube outer diameter, and the nominal tube centres
      keyed by tube id. */
  datatype TubeSession = TubeSession(unit: string, tubeOd: real, tubes: map<string, Point3D>)

  /** `current_session.unit == "inch" ? 1 : 25.4`: any unit other than the
      exact string "inch" counts as millimetres. */
  function Scale(unit: string): (s: real)
    ensures s > 0.0
    ensures s == 1.0 <==> unit == "inch"
    ensures unit != "inch" ==> s == 25.4
  {
    if unit == "inch" then 1.0 else 25.4
  }

  /** `(tube_od / 2) / scale`: a diameter of `2 * r` in inches. */
  function ProbeRadius(session: TubeSession): (r: real)
    ensures 2.0 * r * Scale(session.unit) == session.tubeOd
    ensures session.unit == "inch" ==> 2.0 * r == session.tubeOd
  {
    (session.tubeOd / 2.0) / Scale(session.unit)
  }

  /** A 19.05 mm tube is probed on a circle of radius 0.375 inch. */
  lemma MillimetreTubeRadius()
    ensures ProbeRadius(TubeSession("mm", 19.05, map[])) == 0.375
  {
  }

  /** `current_session.tubes[tube_id]`: `std::map::operator[]` yields a
      default-constructed point (the origin) for an unknown tube id. */
  function NominalCenter(session: TubeSession, tubeId: string): (c: Point3D)
    ensures tubeId in session.tubes ==> c == session.tubes[tubeId]
    ensures tubeId !in session.tubes ==> c == Default()
  {
    if tubeId in session.tubes then session.tubes[tubeId] else Default()
  }

  /** The tube map after the lookup: `operator[]` inserts the origin under
      an unknown id and leaves a known one as it was. */
  function TubesAfterLookup(session: TubeSession, tubeId: string): (tubes: map<string, Point3D>)
    ensures tubeId in tubes && tubes[tubeId] == NominalCenter(session, tubeId)
    ensures tubes.Keys == session.tubes.Keys + {tubeId}
    ensures forall k :: k in session.tubes ==> tubes[k] == session.tubes[k]
  {
    if tubeId in session.tubes then session.tubes else session.tubes[tubeId := Default()]
  }

  /** The centre handed to `calculateCirclePoints`: the nominal centre
      divided by the scale, which scales back to the nominal centre. */
  function ProbeCenter(session: TubeSession, tubeId: string): (c: Point3D)
    ensures Mul(c, Scale(session.unit)) == NominalCenter(session, tubeId)
  {
    Div(NominalCenter(session, tubeId), Scale(session.unit))
  }

  /** Position `k` of the probing order visits circle point `(2 * k) % n`. */
  function OrderIndex(k: nat, n: nat): (j: nat)
    requires n > 0
    ensures j < n
  {
    (2 * k) % n
  }

  /** The reordered circle points, position by position. */
  function Reorder<T>(points: seq<T>): (r: seq<T>)
    requires |points| > 0
    ensures |r| == |points|
  {
    seq(|points|, k requires 0 <= k < |points| => points[OrderIndex(k, |points|)])
  }

  /** The source loop: `i` starts at 0 and grows by 2 per point, and the
      point at `i % points_number` is appended. */
  method ReorderPoints<T>(points: seq<T>) returns (reordered: seq<T>)
    requires |points| > 0
    ensures reordered == Reorder(points)
  {
    var n := |points|;
    reordered := [];
    var i := 0;
    for m := 0 to n
      invariant i == 2 * m
      invariant |reordered| == m
      invariant forall k :: 0 <= k < m ==> reordered[k] == points[OrderIndex(k, n)]
    {
      reordered := reordered + [points[i % n]];
      i := i + 2;
    }
  }

  /** For `points_number` = 5 the circle is visited in the order 0, 2, 4, 1, 3. */
  lemma FivePointOrder<T>(points: seq<T>)
    requires |points| == PointsNumber
    ensures Reorder(points) == [points[0], points[2], points[4], points[1], points[3]]
  {
  }

  // --- the step-2 order is a permutation exactly when n is odd ---

  lemma ModBelow(a: int, n: int)
    requires 0 <= a < n
    ensures a % n == a
  {
  }

  lemma ModWrapOnce(a: int, n: int)
    requires 0 < n <= a < 2 * n
    ensures a % n == a - n
  {
  }

  /** Where circle point `j` appears in the probing order: even points
      first, then odd points. */
  function Position(j: nat, n: nat): (k: nat)
    requires n % 2 == 1 && j < n
    ensures k < n
  {
    if j % 2 == 0 then j / 2 else (n + 1) / 2 + j / 2
  }

  /** For odd `n` the order visits every circle point exactly once:
      `Position` inverts `OrderIndex` on both sides. */
  lemma OrderIndexBijective(n: nat)
    requires n % 2 == 1
    ensures forall k :: 0 <= k < n ==> Position(OrderIndex(k, n), n) == k
    ensures forall j :: 0 <= j < n ==> OrderIndex(Position(j, n), n) == j
  {
    forall k | 0 <= k < n
      ensures Position(OrderIndex(k, n), n) == k
    {
      if 2 * k < n {
        ModBelow(2 * k, n);
      } else {
        ModWrapOnce(2 * k, n);
      }
    }
    forall j | 0 <= j < n
      ensures OrderIndex(Position(j, n), n) == j
    {
      var k := Position(j, n);
      if j % 2 == 0 {
        ModBelow(2 * k, n);
      } else {
        ModWrapOnce(2 * k, n);
      }
    }
  }

  /** For even `n` the order is not a permutation: position `n / 2` revisits
      point 0. */
  lemma EvenCountRevisits(n: nat)
    requires n > 0 && n % 2 == 0
    ensures OrderIndex(n / 2, n) == OrderIndex(0, n) == 0
    ensures n > 1 ==> n / 2 != 0
  {
    assert 2 * (n / 2) == n;
    ModWrapOnce(n, n);
    ModBelow(0, n);
  }

  /** The points at even indices, in order. */
  function Evens<T>(s: seq<T>): (r: seq<T>)
    ensures |r| == (|s| + 1) / 2
    decreases |s|
  {
    if |s| == 0 then [] else if |s| == 1 then [s[0]] else [s[0]] + Evens(s[2..])
  }

  /** The points at odd indices, in order. */
  function Odds<T>(s: seq<T>): (r: seq<T>)
    ensures |r| == |s| / 2
    decreases |s|
  {
    if |s| <= 1 then [] else [s[1]] + Odds(s[2..])
  }

  lemma {:induction false} EvensOddsAt<T>(s: seq<T>)
    ensures forall j :: 0 <= j < |Evens(s)| ==> Evens(s)[j] == s[2 * j]
    ensures forall j :: 0 <= j < |Odds(s)| ==> Odds(s)[j] == s[2 * j + 1]
    decreases |s|
  {
    if |s| >= 2 {
      var t := s[2..];
      EvensOddsAt(t);
      forall j | 0 < j < |Evens(s)|
        ensures Evens(s)[j] == s[2 * j]
      {
        assert Evens(s)[j] == Evens(t)[j - 1] == t[2 * (j - 1)];
      }
      forall j | 0 < j < |Odds(s)|
        ensures Odds(s)[j] == s[2 * j + 1]
      {
        assert Odds(s)[j] == Odds(t)[j - 1] == t[2 * (j - 1) + 1];
      }
    }
  }

  lemma {:induction false} EvensOddsSplit<T>(s: seq<T>)
    ensures multiset(Evens(s)) + multiset(Odds(s)) == multiset(s)
    decreases |s|
  {
    if |s| == 1 {
      assert s == [s[0]];
    } else if |s| >= 2 {
      EvensOddsSplit(s[2..]);
      PeelTwo(s);
    }
  }

  lemma PeelTwo<T>(s: seq<T>)
    requires |s| >= 2
    ensures multiset(Evens(s)) == multiset{s[0]} + multiset(Evens(s[2..]))
    ensures multiset(Odds(s)) == multiset{s[1]} + multiset(Odds(s[2..]))
    ensures multiset(s) == multiset{s[0]} + multiset{s[1]} + multiset(s[2..])
  {
    PeelEvens(s);
    PeelOdds(s);
    PeelPair(s);
  }

  lemma PeelEvens<T>(s: seq<T>)
    requires |s| >= 2
    ensures multiset(Evens(s)) == multiset{s[0]} + multiset(Evens(s[2..]))
  {
    assert Evens(s) == [s[0]] + Evens(s[2..]);
  }

  lemma PeelOdds<T>(s: seq<T>)
    requires |s| >= 2
    ensures multiset(Odds(s)) == multiset{s[1]} + multiset(Odds(s[2..]))
  {
    assert Odds(s) == [s[1]] + Odds(s[2..]);
  }

  lemma PeelPair<T>(s: seq<T>)
    requires |s| >= 2
    ensures multiset(s) == multiset{s[0]} + multiset{s[1]} + multiset(s[2..])
  {
    assert s == [s[0]] + [s[1]] + s[2..];
  }

  /** For odd `n` the probing order is the even-indexed points followed by
      the odd-indexed ones. */
  lemma ReorderIsEvensThenOdds<T>(points: seq<T>)
    requires |points| % 2 == 1
    ensures Reorder(points) == Evens(points) + Odds(points)
  {
    EvensOddsAt(points);
    forall k | 0 <= k < |points|
      ensures Reorder(points)[k] == (Evens(points) + Odds(points))[k]
    {
      ReorderAt(points, k);
    }
  }

  lemma ReorderAt<T>(points: seq<T>, k: nat)
    requires |points| % 2 == 1 && k < |points|
    requires forall j :: 0 <= j < |Evens(points)| ==> Evens(points)[j] == points[2 * j]
    requires forall j :: 0 <= j < |Odds(points)| ==> Odds(points)[j] == points[2 * j + 1]
    ensures Reorder(points)[k] == (Evens(points) + Odds(points))[k]
  {
    var n, h := |points|, |Evens(points)|;
    if k < h {
      ModBelow(2 * k, n);
      assert Reorder(points)[k] == points[2 * k];
    } else {
      ModWrapOnce(2 * k, n);
      assert 2 * k - n == 2 * (k - h) + 1;
      assert Reorder(points)[k] == points[2 * (k - h) + 1];
      assert (Evens(points) + Odds(points))[k] == Odds(points)[k - h];
    }
  }

  /** For odd `n` every circle point is probed exactly once: the reordered
      points are a permutation of the circle points. */
  lemma ReorderIsPermutation<T>(points: seq<T>)
    requires |points| % 2 == 1
    ensures multiset(Reorder(points)) == multiset(points)
  {
    ReorderIsEvensThenOdds(points);
    EvensOddsSplit(points);
  }

  /** The step built for one point: axes `"XY"`, setpoints the point's x and
      y, and an untouched (origin) `reached_coords`. */
  function XYStep(p: Point3D): SequenceStep
  {
    SequenceStep("XY", p.x, p.y, Default())
  }

  /** One `sequence_step` per point, in the same order. */
  function StepsFor(points: seq<Point3D>): (steps: seq<SequenceStep>)
    ensures |steps| == |points|
    ensures forall k :: 0 <= k < |steps| ==>
      && steps[k].axes == "XY"
      && steps[k].firstSetpoint == points[k].x
      && steps[k].secondSetpoint == points[k].y
      && steps[k].reachedCoords == Default()
  {
    if |points| == 0 then [] else [XYStep(points[0])] + StepsFor(points[1..])
  }

  /** The probing plan: the circle points in probing order, one step each. */
  function Plan(circlePoints: seq<Point3D>): (steps: seq<SequenceStep>)
    requires |circlePoints| == PointsNumber
    ensures |steps| == PointsNumber
    ensures forall k :: 0 <= k < PointsNumber ==>
      steps[k] == XYStep(circlePoints[OrderIndex(k, PointsNumber)])
  {
    StepsFor(Reorder(circlePoints))
  }

  /** Every command the probing run transmits is an `"XY"` move to a circle
      point, the k-th one to the k-th point of the probing order. */
  lemma PlannedRunTargetsCircle(circlePoints: seq<Point3D>, r: Rema, feed: seq<Tick>, fault: Option<SendFault>)
    requires |circlePoints| == PointsNumber
    ensures var run := ExecSeq(Plan(circlePoints), r, feed, fault);
      forall k :: 0 <= k < |run.sent| ==>
        var p := circlePoints[OrderIndex(k, PointsNumber)];
        run.sent[k] == [MoveClosedLoop("XY", p.x, p.y)]
  {
  }
}

=== FILE: points.dfy ===
/** The `Point3D` value type: componentwise arithmetic, the two different
    division-by-zero behaviours of `/` and `/=`, and (squared) distances.
    Coordinates are `real`, an idealisation of `double`. */
module Points {
  import opened Wrappers

  datatype Point3D = Point3D(x: real, y: real, z: real)

  /** `Point3D()`: every coordinate keeps its in-class initialiser 0, so the
      default point is the neutral element of `+` and a fixed point of `*`. */
  function Default(): (o: Point3D)
    ensures forall p: Point3D :: Add(p, o) == p && Add(o, p) == p
    ensures forall s: real :: Mul(o, s) == o
  {
    Point3D(0.0, 0.0, 0.0)
  }

  /** `p * scalar`: every coordinate scaled. */
  function Mul(p: Point3D, s: real): Point3D
  {
    Point3D(p.x * s, p.y * s, p.z * s)
  }

  /** `p / scalar`: for a non-zero divisor the inverse of `*`; for a zero
      divisor the error is only logged and the point comes back unchanged. */
  function Div(p: Point3D, s: real): (r: Point3D)
    ensures s == 0.0 ==> r == p
    ensures s != 0.0 ==> Mul(r, s) == p
  {
    if s != 0.0 then Point3D(p.x / s, p.y / s, p.z / s) else p
  }

  function Add(p: Point3D, q: Point3D): Point3D
  {
    Point3D(p.x + q.x, p.y + q.y, p.z + q.z)
  }

  function Sub(p: Point3D, q: Point3D): Point3D
  {
    Point3D(p.x - q.x, p.y - q.y, p.z - q.z)
  }

  /** `(p + q) - q == p` and `(p - q) + q == p`. */
  lemma AddSubInverse(p: Point3D, q: Point3D)
    ensures Sub(Add(p, q), q) == p
    ensures Add(Sub(p, q), q) == p
  {
  }

  /** Componentwise addition does not depend on the order of the operands. */
  lemma AddCommutes(p: Point3D, q: Point3D)
    ensures Add(p, q) == Add(q, p)
  {
  }

  /** `(p * s) / s == p` for a non-zero factor. */
  lemma DivUndoesMul(p: Point3D, s: real)
    requires s != 0.0
    ensures Div(Mul(p, s), s) == p
  {
  }

  /** The state of a point after a compound assignment, and the exception the
      assignment threw, if any. */
  datatype Assigned = Assigned(after: Point3D, thrown: Option<string>)

  /** `p += q`, updating the fields one by one: the same value as `p + q`. */
  function AddAssign(p: Point3D, q: Point3D): (r: Point3D)
    ensures r == Add(p, q)
  {
    p.(x := p.x + q.x).(y := p.y + q.y).(z := p.z + q.z)
  }

  /** `p -= q`: the same value as `p - q`. */
  function SubAssign(p: Point3D, q: Point3D): (r: Point3D)
    ensures r == Sub(p, q)
  {
    p.(x := p.x - q.x).(y := p.y - q.y).(z := p.z - q.z)
  }

  /** `p *= s`: the same value as `p * s`. */
  function MulAssign(p: Point3D, s: real): (r: Point3D)
    ensures r == Mul(p, s)
  {
    p.(x := p.x * s).(y := p.y * s).(z := p.z * s)
  }

  /** `p /= s`: unlike `/`, a zero divisor throws `runtime_error("Division by
      zero")` before any field is touched; otherwise it agrees with `/`. */
  function DivAssign(p: Point3D, s: real): (r: Assigned)
    ensures s == 0.0 ==> r.after == p && r.thrown == Some("Division by zero")
    ensures s != 0.0 ==> r.thrown == None && r.after == Div(p, s)
  {
    if s != 0.0 then Assigned(p.(x := p.x / s).(y := p.y / s).(z := p.z / s), None)
    else Assigned(p, Some("Division by zero"))
  }

  /** The two division operators disagree exactly on a zero divisor: `/`
      yields the dividend, `/=` throws. */
  lemma DivisionByZeroContracts(p: Point3D, s: real)
    ensures DivAssign(p, s).thrown.None? <==> s != 0.0
    ensures DivAssign(p, s).after == Div(p, s)
  {
  }

  function Square(a: real): real
  {
    a * a
  }

  lemma SquareSign(a: real)
    ensures Square(a) >= 0.0
    ensures a != 0.0 ==> Square(a) > 0.0
  {
    if a > 0.0 {
      calc {
        Square(a);
      ==
        a * a;
      > { assert a * a > 0.0 * a; }
        0.0;
      }
    } else if a < 0.0 {
      calc {
        Square(a);
      ==
        (-a) * (-a);
      > { assert (-a) * (-a) > 0.0 * (-a); }
        0.0;
      }
    }
  }

  /** The square of `distance`: never negative, and zero for equal points. */
  function DistanceSq(p: Point3D, q: Point3D): (d: real)
    ensures d >= 0.0
    ensures p == q ==> d == 0.0
  {
    SquareSign(p.x - q.x);
    SquareSign(p.y - q.y);
    SquareSign(p.z - q.z);
    Square(p.x - q.x) + Square(p.y - q.y) + Square(p.z - q.z)
  }

  /** The square of `distance_xy`: zero when the points agree in x and y,
      whatever their z, and never above `DistanceSq`. */
  function DistanceXYSq(p: Point3D, q: Point3D): (d: real)
    ensures 0.0 <= d <= DistanceSq(p, q)
    ensures p.x == q.x && p.y == q.y ==> d == 0.0
  {
    SquareSign(p.x - q.x);
    SquareSign(p.y - q.y);
    SquareSign(p.z - q.z);
    Square(p.x - q.x) + Square(p.y - q.y)
  }

  /** Distinct points are at a positive distance, so a zero distance means
      equal points. */
  lemma DistancePositive(p: Point3D, q: Point3D)
    requires p != q
    ensures DistanceSq(p, q) > 0.0
  {
    SquareSign(p.x - q.x);
    SquareSign(p.y - q.y);
    SquareSign(p.z - q.z);
  }

  /** Both distances are symmetric. */
  lemma DistanceSymmetric(p: Point3D, q: Point3D)
    ensures DistanceSq(p, q) == DistanceSq(q, p)
    ensures DistanceXYSq(p, q) == DistanceXYSq(q, p)
  {
  }

  /** `distance_xy` does not look at z, and the 3D distance exceeds it by the
      z difference alone. */
  lemma DistanceXYIgnoresZ(p: Point3D, q: Point3D, pz: real, qz: real)
    ensures DistanceXYSq(p.(z := pz), q.(z := qz)) == DistanceXYSq(p, q)
    ensures DistanceSq(p, q) == DistanceXYSq(p, q) + (p.z - q.z) * (p.z - q.z)
  {
  }

  /** Scaling both points by `s` scales their squared distance by `s * s`. */
  lemma MulScalesDistance(p: Point3D, q: Point3D, s: real)
    ensures DistanceSq(Mul(p, s), Mul(q, s)) == Square(s) * DistanceSq(p, q)
  {
    var dx, dy, dz := p.x - q.x, p.y - q.y, p.z - q.z;
    assert p.x * s - q.x * s == dx * s;
    assert p.y * s - q.y * s == dy * s;
    assert p.z * s - q.z * s == dz * s;
    SquareOfProduct(dx, s);
    SquareOfProduct(dy, s);
    SquareOfProduct(dz, s);
    calc {
      DistanceSq(Mul(p, s), Mul(q, s));
      Square(dx * s) + Square(dy * s) + Square(dz * s);
      Square(s) * Square(dx) + Square(s) * Square(dy) + Square(s) * Square(dz);
      Square(s) * (Square(dx) + Square(dy) + Square(dz));
      Square(s) * DistanceSq(p, q);
    }
  }

  lemma SquareOfProduct(a: real, s: real)
    ensures Square(a * s) == Square(s) * Square(a)
  {
  }

  /** Translating both points by the same vector keeps their distance. */
  lemma DistanceTranslationInvariant(p: Point3D, q: Point3D, v: Point3D)
    ensures DistanceSq(Add(p, v), Add(q, v)) == DistanceSq(p, q)
  {
  }
}

=== FILE: rest_handlers.dfy ===
/** The validation branches of three REST handlers: which status and body
    each answers with, and when the server state changes. The request body
    is the parsed JSON form; what the handlers call on the inspection
    session and the tool store comes in as an explicit outcome. An
    exception that no `catch` of the handler covers is a `Failure`
    carrying its `what()` text. */
module RestHandlers {
  import opened Wrappers
  import opened Json

  /** The restbed status codes the handlers answer with. */
  const Ok: int := 200
  const Created: int := 201
  const NoContent: int := 204
  const BadRequest: int := 400
  const InternalServerError: int := 500

  /** What `close_session` sends: a status and a text body. */
  datatype Response = Response(status: int, body: string)

  /** The reply, and the server's current inspection session afterwards. */
  datatype Handled<S> = Handled(response: Response, current: S)

  // --- inspection_sessions_create ---

  const NoFilename: string := "No filename specified \n"
  const NoHx: string := "No HX specified \n"
  const CreationError: string := "Error creating InspectionSession \n"

  /** The outcome of constructing the new session, loading its plans and
      saving it: the constructor or `load_plans` threw; `load_plans`
      returned its log and `save_to_disk` threw; or all went through. */
  datatype Creation<S> = ConstructionThrew | SaveThrew(logs: string) | Built(session: S, logs: string)

  /** The messages collected before the `try`: one line per missing input,
      the filename line first. */
  function MissingInputs(name: string, hx: Json): (msg: string)
    ensures msg == "" <==> name != "" && !IsEmpty(hx)
  {
    (if name == "" then NoFilename else "") + (if IsEmpty(hx) then NoHx else "")
  }

  /** `inspection_sessions_create`. Reading `session_name` happens outside
      the `try`, so a missing or non-string name escapes as an exception.
      A non-string `hx` fails its conversion to a path inside the `try`. */
  function InspectionSessionsCreate<S>(form: Json, current: S, creation: Creation<S>): (r: Result<Handled<S>, string>)
    ensures r.Failure? <==> StringField(form, "session_name").Failure?
    ensures r.Success? ==>
      var name := StringField(form, "session_name").value;
      var hx := Member(form, "hx");
      && (r.value.response.status == BadRequest <==> name == "" || IsEmpty(hx))
      && (r.value.response.status == BadRequest ==> r.value.response.body == MissingInputs(name, hx))
      && (r.value.response.status == Created <==> name != "" && hx.JString? && creation.Built?)
      && (r.value.response.status == Created ==> r.value.response.body == creation.logs && r.value.current == creation.session)
      && (r.value.response.status != Created ==> r.value.current == current)
      && r.value.response.status in {Created, BadRequest, InternalServerError}
  {
    var name :- StringField(form, "session_name");
    var hx := Member(form, "hx");
    var msg := MissingInputs(name, hx);
    if msg != "" then Success(Handled(Response(BadRequest, msg), current))
    else if !hx.JString? then Success(Handled(Response(InternalServerError, CreationError), current))
    else
      match creation
      case ConstructionThrew => Success(Handled(Response(InternalServerError, CreationError), current))
      case SaveThrew(logs) => Success(Handled(Response(InternalServerError, logs + CreationError), current))
      case Built(session, logs) => Success(Handled(Response(Created, logs), session))
  }

  /** With both inputs missing, both lines are reported, in order, and no
      session is created. */
  lemma BothInputsMissing<S>(form: Json, current: S, creation: Creation<S>)
    requires form.JObject? && "session_name" in form.fields && form.fields["session_name"] == JString("")
    requires "hx" !in form.fields
    ensures InspectionSessionsCreate(form, current, creation)
         == Success(Handled(Response(BadRequest, "No filename specified \nNo HX specified \n"), current))
  {
    assert StringField(form, "session_name") == Success("");
    assert Member(form, "hx") == JNull;
    assert MissingInputs("", JNull) == NoFilename + NoHx;
    assert NoFilename + NoHx == "No filename specified \nNo HX specified \n";
  }

  /** An empty string is not an empty JSON value: `"hx": ""` passes the
      check and the session is built for the empty path. */
  lemma EmptyHxStringPasses<S>(name: string, current: S, creation: Creation<S>)
    requires name != ""
    ensures var form := JObject(map["session_name" := JString(name), "hx" := JString("")]);
      InspectionSessionsCreate(form, current, creation).value.response.status != BadRequest
  {
  }

  /** When saving fails after the plans were loaded, the plan log is kept
      and the error line is appended to it. */
  lemma SaveFailureKeepsLog<S>(name: string, hx: string, current: S, logs: string)
    requires name != ""
    ensures var form := JObject(map["session_name" := JString(name), "hx" := JString(hx)]);
      InspectionSessionsCreate(form, current, SaveThrew(logs))
        == Success(Handled(Response(InternalServerError, logs + "Error creating InspectionSession \n"), current))
  {
    var form := JObject(map["session_name" := JString(name), "hx" := JString(hx)]);
    assert Member(form, "hx") == JString(hx);
  }

  // --- tools_create ---

  const NoToolName: string := "No tool name specified"
  const OffsetsWrong: string := "Offsets wrong"
  const ToolCreated: string := "Tool created Successfully"

  /** What `std::stof` does with a string: a value, `std::invalid_argument`
      (no conversion) or `std::out_of_range` (outside `float`'s range). */
  datatype FloatParse = Parsed(value: real) | NoConversion | TooLarge

  /** An exception inside the `try`, sorted by the two `catch` clauses. */
  datatype Thrown = InvalidArgumentThrown(what: string) | OtherThrown(what: string)

  /** The tool the handler constructs. */
  datatype Tool = Tool(name: string, offsetX: real, offsetY: real, offsetZ: real)

  /** `std::stof(form_data[key].get<std::string>())`: a non-string field
      throws a JSON type error, which is not an `invalid_argument`. */
  function ReadOffset(form: Json, key: string, stof: string -> FloatParse): (r: Result<real, Thrown>)
    ensures !Member(form, key).JString? ==> r == Failure(OtherThrown(NotAString(Member(form, key))))
    ensures Member(form, key).JString? ==>
      match stof(Member(form, key).s)
      case Parsed(v) => r == Success(v)
      case NoConversion => r == Failure(InvalidArgumentThrown("stof"))
      case TooLarge => r == Failure(OtherThrown("stof"))
    ensures r.Failure? && r.error.InvalidArgumentThrown? <==>
      Member(form, key).JString? && stof(Member(form, key).s).NoConversion?
  {
    var v := Member(form, key);
    if !v.JString? then Failure(OtherThrown(NotAString(v)))
    else
      match stof(v.s)
      case Parsed(x) => Success(x)
      case NoConversion => Failure(InvalidArgumentThrown("stof"))
      case TooLarge => Failure(OtherThrown("stof"))
  }

  /** The two `catch` clauses: `invalid_argument` appends "Offsets wrong"
      to the (empty) message and answers 400; any other exception answers
      500 with its text. */
  function Caught(t: Thrown): (resp: Response)
    ensures resp.status == BadRequest <==> t.InvalidArgumentThrown?
    ensures resp.status in {BadRequest, InternalServerError}
  {
    match t
    case InvalidArgumentThrown(_) => Response(BadRequest, OffsetsWrong)
    case OtherThrown(what) => Response(InternalServerError, what)
  }

  /** The tool built from the three offsets, read in the order x, y, z; the
      first failing read decides the exception. */
  function ReadTool(form: Json, name: string, stof: string -> FloatParse): (r: Result<Tool, Thrown>)
    ensures r.Success? <==>
      ReadOffset(form, "offset_x", stof).Success? &&
      ReadOffset(form, "offset_y", stof).Success? &&
      ReadOffset(form, "offset_z", stof).Success?
    ensures r.Success? ==> r.value == Tool(name, ReadOffset(form, "offset_x", stof).value,
                                       ReadOffset(form, "offset_y", stof).value,
                                       ReadOffset(form, "offset_z", stof).value)
    ensures ReadOffset(form, "offset_x", stof).Failure? ==> r == Failure(ReadOffset(form, "offset_x", stof).error)
    ensures ReadOffset(form, "offset_x", stof).Success? && ReadOffset(form, "offset_y", stof).Failure? ==>
      r == Failure(ReadOffset(form, "offset_y", stof).error)
    ensures (ReadOffset(form, "offset_x", stof).Success? && ReadOffset(form, "offset_y", stof).Success? &&
             ReadOffset(form, "offset_z", stof).Failure?) ==> r == Failure(ReadOffset(form, "offset_z", stof).error)
  {
    var x :- ReadOffset(form, "offset_x", stof);
    var y :- ReadOffset(form, "offset_y", stof);
    var z :- ReadOffset(form, "offset_z", stof);
    Success(Tool(name, x, y, z))
  }

  /** The reply of `tools_create`, and the tool it constructed. */
  datatype ToolReply = ToolReply(response: Response, created: Option<Tool>)

  /** `tools_create`. `construct` is the outcome of the `Tool` constructor,
      which stores the tool: `None` when it returns. */
  function ToolsCreate(form: Json, stof: string -> FloatParse, construct: Option<Thrown>): (r: Result<ToolReply, string>)
    ensures r.Failure? <==> StringField(form, "tool_name").Failure?
    ensures r.Success? ==>
      var name := StringField(form, "tool_name").value;
      var tool := ReadTool(form, name, stof);
      && (name == "" ==> r.value == ToolReply(Response(BadRequest, NoToolName), None))
      && (r.value.response.status == Created <==> name != "" && tool.Success? && construct.None?)
      && (r.value.created.Some? <==> r.value.response.status == Created)
      && (r.value.response.status == Created ==>
            r.value.response.body == ToolCreated && r.value.created == Some(tool.value))
      && (name != "" && tool.Failure? ==> r.value.response == Caught(tool.error))
      && r.value.response.status in {Created, BadRequest, InternalServerError}
  {
    var name :- StringField(form, "tool_name");
    if name == "" then Success(ToolReply(Response(BadRequest, NoToolName), None))
    else
      match ReadTool(form, name, stof)
      case Failure(t) => Success(ToolReply(Caught(t), None))
      case Success(tool) =>
        match construct
        case Some(t) => Success(ToolReply(Caught(t), None))
        case None => Success(ToolReply(Response(Created, ToolCreated), Some(tool)))
  }

  /** An offset that is not a number answers 400 "Offsets wrong"; a missing
      offset reads as null and answers 500 with the type error; an offset
      sent as a JSON number rather than a string answers 500 with the type
      error too, even though its value would have been usable. */
  lemma OffsetErrors(name: string, stof: string -> FloatParse, construct: Option<Thrown>, x: string)
    requires name != ""
    ensures stof(x).NoConversion? ==>
      var form := JObject(map["tool_name" := JString(name), "offset_x" := JString(x)]);
      ToolsCreate(form, stof, construct) == Success(ToolReply(Response(BadRequest, "Offsets wrong"), None))
    ensures
      var form := JObject(map["tool_name" := JString(name)]);
      ToolsCreate(form, stof, construct)
        == Success(ToolReply(Response(InternalServerError, "[json.exception.type_error.302] type must be string, but is null"), None))
    ensures
      var form := JObject(map["tool_name" := JString(name), "offset_x" := JInt(1)]);
      ToolsCreate(form, stof, construct)
        == Success(ToolReply(Response(InternalServerError, "[json.exception.type_error.302] type must be string, but is number"), None))
  {
    var form := JObject(map["tool_name" := JString(name), "offset_x" := JString(x)]);
    assert Member(form, "offset_x") == JString(x);
    var form' := JObject(map["tool_name" := JString(name), "offset_x" := JInt(1)]);
    assert Member(form', "offset_x") == JInt(1);
    assert NotAString(JInt(1)) == "[json.exception.type_error.302] type must be string, but is number";
    assert ReadTool(form', name, stof) == Failure(OtherThrown(NotAString(JInt(1))));
    var bare := JObject(map["tool_name" := JString(name)]);
    assert Member(bare, "offset_x") == JNull;
    assert NotAString(JNull) == "[json.exception.type_error.302] type must be string, but is null";
    assert ReadTool(bare, name, stof) == Failure(OtherThrown(NotAString(JNull)));
  }

  // --- cal_points_delete ---

  const NoTube: string := "No tube specified"

  /** `cal_points_delete`: an empty tube id is refused with 500; otherwise
      the tube's calibration point is removed and the answer is 204 with an
      empty body. */
  function CalPointsDelete<V>(tubeId: string, calPoints: map<string, V>): (r: (Response, map<string, V>))
    ensures tubeId == "" ==> r.0 == Response(InternalServerError, NoTube) && r.1 == calPoints
    ensures tubeId != "" ==> r.0 == Response(NoContent, "")
    ensures tubeId != "" ==> tubeId !in r.1
    ensures forall k :: k in calPoints && k != tubeId ==> k in r.1 && r.1[k] == calPoints[k]
    ensures forall k :: k in r.1 ==> k in calPoints
  {
    if tubeId == "" then (Response(InternalServerError, NoTube), calPoints)
    else (Response(NoContent, ""), calPoints - {tubeId})
  }

  /** Deleting the same tube twice gives the same points and the same
      answer as deleting it once. */
  lemma CalPointsDeleteIdempotent<V>(tubeId: string, calPoints: map<string, V>)
    ensures var once := CalPointsDelete(tubeId, calPoints);
      CalPointsDelete(tubeId, once.1) == once
  {
    var once := CalPointsDelete(tubeId, calPoints);
    var twice := CalPointsDelete(tubeId, once.1);
    assert twice.1 == once.1;
  }
}

=== FILE: sequencer.dfy ===
/** `exec_seq`: drives a list of closed-loop moves through the REMA link.
    Every step replaces the pending command buffer by one `MOVE_CLOSED_LOOP`
    command, sends it, then folds telemetry frames into REMA's snapshot until
    the probe touches, the axis pair reports its condition, or a cancel is
    requested. The link is replaced by a scripted feed of receive outcomes. */
module Sequencer {
  import opened Wrappers
  import opened Points

  /** `sequence_step`: the axis pair, its two setpoints, and a
      `reached_coords` slot that the sequencer never fills. */
  datatype SequenceStep = SequenceStep(axes: string, firstSetpoint: real, secondSetpoint: real, reachedCoords: Point3D)

  /** One entry of the `"commands"` array sent to the RTU. */
  datatype Command =
    | SoftStopAll
    | MoveClosedLoop(axes: string, firstSetpoint: real, secondSetpoint: real)

  /** The `"commands"` array of one transmitted buffer. */
  type Buffer = seq<Command>

  /** The part of REMA's telemetry snapshot the sequencer reads:
      `coords`, `limits.probe` and `on_condition.x_y`. */
  datatype Telemetry = Telemetry(coords: Point3D, probe: bool, xy: bool)

  /** Outcome of `receive_blocking` followed by `update_telemetry`: a new
      frame, or an exception (timeout, parse error) that is only logged. */
  datatype Receive = Received(frame: Telemetry) | ReceiveFailed(what: string)

  /** One pass of the wait loop: what the receive produced, and the value of
      `cancel_cmd` (written by other requests) that the loop condition and
      the check after the loop read. The code reads the flag twice, and
      another request could set it in between; a single value per pass
      assumes both reads agree. */
  datatype Tick = Tick(receive: Receive, cancel: bool)

  /** The REMA singleton's state as the sequencer sees it. */
  datatype Rema = Rema(telemetry: Telemetry, cancelCmd: bool, isDetermining: bool)

  /** `send_blocking` throws on the send with index `at` (counted from 0
      over the sends of the request being modelled). */
  datatype SendFault = SendFault(at: nat, what: string)

  function MoveCommand(step: SequenceStep): Command
  {
    MoveClosedLoop(step.axes, step.firstSetpoint, step.secondSetpoint)
  }

  /** `to_rema["commands"].clear()`. */
  function Cleared(pending: Buffer): (b: Buffer)
    ensures |b| == 0
  {
    pending[..0]
  }

  /** The snapshot after one pass: a received frame replaces the telemetry,
      a failed receive leaves the previous (possibly stale) frame in place. */
  function Fold(r: Rema, tick: Tick): (r': Rema)
    ensures r'.isDetermining == r.isDetermining
    ensures r'.cancelCmd == tick.cancel
    ensures tick.receive.ReceiveFailed? ==> r'.telemetry == r.telemetry
    ensures tick.receive.Received? ==> r'.telemetry == tick.receive.frame
  {
    match tick.receive
    case Received(frame) => r.(telemetry := frame, cancelCmd := tick.cancel)
    case ReceiveFailed(_) => r.(cancelCmd := tick.cancel)
  }

  /** The condition that ends the `do { ... } while` loop. */
  predicate WaitOver(r: Rema)
  {
    r.telemetry.probe || r.cancelCmd || r.telemetry.xy
  }

  /** How a wait loop ends: with an exit condition and the unread rest of the
      feed, or with the feed used up while the source would still be blocked. */
  datatype WaitEnd = Exited(rema: Rema, rest: seq<Tick>) | Starved(rema: Rema)

  /** The wait loop of one step. It receives at least once (do-while), ends
      only on an exit condition, and leaves `is_determining` alone. */
  function Wait(r: Rema, feed: seq<Tick>): (w: WaitEnd)
    ensures w.Exited? ==> WaitOver(w.rema)
    ensures w.Exited? ==> |w.rest| < |feed| && w.rest == feed[|feed| - |w.rest|..]
    ensures w.rema.isDetermining == r.isDetermining
    decreases |feed|
  {
    if |feed| == 0 then Starved(r)
    else
      var r' := Fold(r, feed[0]);
      if WaitOver(r') then Exited(r', feed[1..]) else Wait(r', feed[1..])
  }

  /** A swallowed receive error is a plain retry: while neither the stale
      snapshot nor the cancel flag ends the loop, the failed pass changes
      nothing. */
  lemma ReceiveFailureRetries(r: Rema, what: string, feed: seq<Tick>)
    requires !r.telemetry.probe && !r.telemetry.xy
    ensures Wait(r, [Tick(ReceiveFailed(what), false)] + feed) == Wait(r.(cancelCmd := false), feed)
  {
    var feed' := [Tick(ReceiveFailed(what), false)] + feed;
    assert feed'[1..] == feed;
  }

  /** The snapshot outlives a step: when the previous step ended on
      `on_condition.x_y` and the first receive of the next step fails, the
      next wait ends at once on the stale frame. */
  lemma StaleFrameEndsWait(r: Rema, what: string, cancel: bool, feed: seq<Tick>)
    requires r.telemetry.xy
    ensures Wait(r, [Tick(ReceiveFailed(what), cancel)] + feed)
         == Exited(r.(cancelCmd := cancel), feed)
  {
    var feed' := [Tick(ReceiveFailed(what), cancel)] + feed;
    assert feed'[1..] == feed;
  }

  /** The coordinates recorded by a list of loop exits: one per exit whose
      `on_condition.x_y` is set, in order. */
  function Recorded(ends: seq<Rema>): (pts: seq<Point3D>)
    ensures |pts| <= |ends|
  {
    if |ends| == 0 then []
    else (if ends[0].telemetry.xy then [ends[0].telemetry.coords] else []) + Recorded(ends[1..])
  }

  lemma {:induction false} RecordedAppend(ends: seq<Rema>, e: Rema)
    ensures Recorded(ends + [e]) == Recorded(ends) + (if e.telemetry.xy then [e.telemetry.coords] else [])
    decreases |ends|
  {
    var last := if e.telemetry.xy then [e.telemetry.coords] else [];
    if |ends| == 0 {
      assert ends + [e] == [e];
    } else {
      var head := if ends[0].telemetry.xy then [ends[0].telemetry.coords] else [];
      var longer := ends + [e];
      assert longer[0] == ends[0] && longer[1..] == ends[1..] + [e];
      RecordedAppend(ends[1..], e);
      calc {
        Recorded(longer);
        head + Recorded(ends[1..] + [e]);
        head + (Recorded(ends[1..]) + last);
        { SeqAssoc(head, Recorded(ends[1..]), last); }
        (head + Recorded(ends[1..])) + last;
      }
    }
  }

  /** Every point is the coordinate of an exit with `on_condition.x_y` set. */
  lemma {:induction false} RecordedOnlyXY(ends: seq<Rema>, p: Point3D)
    requires p in Recorded(ends)
    ensures exists i :: 0 <= i < |ends| && ends[i].telemetry.xy && ends[i].telemetry.coords == p
    decreases |ends|
  {
    if ends[0].telemetry.xy && p == ends[0].telemetry.coords {
    } else {
      RecordedOnlyXY(ends[1..], p);
      var i :| 0 <= i < |ends[1..]| && ends[1..][i].telemetry.xy && ends[1..][i].telemetry.coords == p;
      assert ends[i + 1] == ends[1..][i];
    }
  }

  /** How `exec_seq` returned: all steps done, stopped by a cancel, left by
      an exception from `send_blocking`, or (feed used up) still waiting. */
  datatype Status = Completed | Cancelled | SendFailed(what: string) | Waiting

  /** `sent`: the buffers transmitted; `ends`: the snapshot at each loop
      exit; `points`: the returned boundary points; `rema`: the final state;
      `rest`: the unread feed. */
  datatype Run = Run(sent: seq<Buffer>, ends: seq<Rema>, points: seq<Point3D>, rema: Rema, rest: seq<Tick>, status: Status)

  /** The fault, counted from the next send on. */
  function Later(fault: Option<SendFault>): Option<SendFault>
  {
    match fault
    case Some(SendFault(at, what)) => if at == 0 then None else Some(SendFault(at - 1, what))
    case None => None
  }

  /** The shape every run has. */
  ghost predicate WellFormedRun(steps: seq<SequenceStep>, r: Rema, run: Run)
  {
    && |run.sent| <= |steps|
    && (forall i :: 0 <= i < |run.sent| ==> run.sent[i] == [MoveCommand(steps[i])])
    && (if run.status.Waiting? then |run.ends| + 1 == |run.sent| else |run.ends| == |run.sent|)
    && (forall i :: 0 <= i < |run.ends| ==> WaitOver(run.ends[i]))
    && (forall i :: 0 <= i < |run.ends| - 1 ==> !run.ends[i].cancelCmd)
    && run.points == Recorded(run.ends)
    && (run.status.Completed? ==> |run.sent| == |steps|)
    && (run.status.Cancelled? <==> |run.ends| > 0 && run.ends[|run.ends| - 1].cancelCmd)
    && run.rema.isDetermining == (if run.status.Cancelled? then false else r.isDetermining)
  }

  /** The body of the `for` loop from the current step on; `pending` is the
      buffer left by the previous step (initially the soft stop). */
  function RunSteps(steps: seq<SequenceStep>, pending: Buffer, r: Rema, feed: seq<Tick>, fault: Option<SendFault>): (run: Run)
    ensures WellFormedRun(steps, r, run)
    ensures run.status.SendFailed? ==> fault.Some? && fault.value.at == |run.sent|
    ensures fault.Some? ==> |run.sent| <= fault.value.at
    ensures fault.Some? && fault.value.at < |steps| ==> !run.status.Completed?
    ensures |run.rest| <= |feed|
    decreases |steps|
  {
    if |steps| == 0 then Run([], [], [], r, feed, Completed)
    else
      var buffer := Cleared(pending) + [MoveCommand(steps[0])];
      if fault.Some? && fault.value.at == 0 then Run([], [], [], r, feed, SendFailed(fault.value.what))
      else
        match Wait(r, feed)
        case Starved(r') => Run([buffer], [], [], r', [], Waiting)
        case Exited(r', rest) =>
          var recorded := if r'.telemetry.xy then [r'.telemetry.coords] else [];
          if r'.cancelCmd then
            Run([buffer], [r'], recorded, r'.(isDetermining := false), rest, Cancelled)
          else
            var tail := RunSteps(steps[1..], buffer, r', rest, Later(fault));
            var run := Run([buffer] + tail.sent, [r'] + tail.ends, recorded + tail.points, tail.rema, tail.rest, tail.status);
            StepThenRest(steps, r, r', tail, run);
            run
  }

  /** One completed, uncancelled step followed by a well-formed run of the
      remaining steps is a well-formed run of all of them. */
  lemma StepThenRest(steps: seq<SequenceStep>, r: Rema, r': Rema, tail: Run, run: Run)
    requires |steps| > 0
    requires WaitOver(r') && !r'.cancelCmd && r'.isDetermining == r.isDetermining
    requires WellFormedRun(steps[1..], r', tail)
    requires run.sent == [[MoveCommand(steps[0])]] + tail.sent
    requires run.ends == [r'] + tail.ends
    requires run.points == (if r'.telemetry.xy then [r'.telemetry.coords] else []) + tail.points
    requires run.rema == tail.rema && run.status == tail.status
    ensures WellFormedRun(steps, r, run)
  {
    assert run.ends[1..] == tail.ends;
    forall i | 0 <= i < |run.sent|
      ensures run.sent[i] == [MoveCommand(steps[i])]
    {
      if i > 0 {
        assert run.sent[i] == tail.sent[i - 1];
        assert steps[1..][i - 1] == steps[i];
      }
    }
    forall i | 0 <= i < |run.ends|
      ensures WaitOver(run.ends[i])
    {
      if i > 0 {
        assert run.ends[i] == tail.ends[i - 1];
      }
    }
    forall i | 0 <= i < |run.ends| - 1
      ensures !run.ends[i].cancelCmd
    {
      if i > 0 {
        assert run.ends[i] == tail.ends[i - 1];
      }
    }
    if run.status.Cancelled? {
      assert run.ends[|run.ends| - 1] == tail.ends[|tail.ends| - 1];
    } else if |run.ends| > 1 {
      assert run.ends[|run.ends| - 1] == tail.ends[|tail.ends| - 1];
    }
  }

  /** `exec_seq(seq)`: the soft stop is pushed first and cleared again before
      the first send, so it never reaches the RTU. */
  function ExecSeq(steps: seq<SequenceStep>, r: Rema, feed: seq<Tick>, fault: Option<SendFault>): (run: Run)
    ensures WellFormedRun(steps, r, run)
    ensures forall i :: 0 <= i < |run.sent| ==> |run.sent[i]| == 1 && SoftStopAll !in run.sent[i]
    ensures |run.points| <= |run.sent| <= |steps|
    ensures run.status.SendFailed? ==> fault.Some? && fault.value.at == |run.sent|
    ensures fault.Some? ==> |run.sent| <= fault.value.at
    ensures fault.Some? && fault.value.at < |steps| ==> !run.status.Completed?
  {
    RunSteps(steps, [SoftStopAll], r, feed, fault)
  }

  /** A point recorded in the step that saw the cancel is still returned, as
      the last point. */
  lemma CancelKeepsLastPoint(steps: seq<SequenceStep>, r: Rema, feed: seq<Tick>, fault: Option<SendFault>)
    requires ExecSeq(steps, r, feed, fault).status.Cancelled?
    ensures var run := ExecSeq(steps, r, feed, fault);
      var last := run.ends[|run.ends| - 1];
      && !run.rema.isDetermining
      && |run.sent| == |run.ends|
      && (last.telemetry.xy ==> |run.points| > 0 && run.points[|run.points| - 1] == last.telemetry.coords)
  {
    var run := ExecSeq(steps, r, feed, fault);
    var n := |run.ends|;
    assert run.ends == run.ends[..n - 1] + [run.ends[n - 1]];
    RecordedAppend(run.ends[..n - 1], run.ends[n - 1]);
  }

  /** Every returned point is the coordinate of a snapshot with
      `on_condition.x_y` set at the end of some step's wait, even when the
      probe flag alone ended that wait. */
  lemma PointsComeFromXY(steps: seq<SequenceStep>, r: Rema, feed: seq<Tick>, fault: Option<SendFault>, p: Point3D)
    requires p in ExecSeq(steps, r, feed, fault).points
    ensures var run := ExecSeq(steps, r, feed, fault);
      exists i :: 0 <= i < |run.ends| && run.ends[i].telemetry.xy && run.ends[i].telemetry.coords == p
  {
    RecordedOnlyXY(ExecSeq(steps, r, feed, fault).ends, p);
  }

  /** A run stopped by a cancel after `sends` buffers, having read the
      whole feed, returning `points`, with `is_determining` cleared. */
  predicate CancelledWith(run: Run, points: seq<Point3D>, sends: nat)
  {
    && run.status == Cancelled && run.points == points && |run.sent| == sends
    && !run.rema.isDetermining && run.rest == []
  }

  /** A five-step run: the first two steps end on `on_condition.x_y` at
      `c1` and `c2`; in the third a flagless frame arrives and then a cancel.
      Three buffers are sent, two points come back, and the sequence stops
      with `is_determining` cleared. */
  lemma CancelledScenario(steps: seq<SequenceStep>, r: Rema, c1: Point3D, c2: Point3D, c3: Point3D)
    requires |steps| == 5
    ensures var quiet := Telemetry(c3, false, false);
      var feed := [Tick(Received(Telemetry(c1, false, true)), false),
                   Tick(Received(Telemetry(c2, false, true)), false),
                   Tick(Received(quiet), false),
                   Tick(Received(quiet), true)];
      CancelledWith(ExecSeq(steps, r, feed, None), [c1, c2], 3)
  {
    var quiet := Telemetry(c3, false, false);
    var t1 := Tick(Received(Telemetry(c1, false, true)), false);
    var t2 := Tick(Received(Telemetry(c2, false, true)), false);
    var t3 := Tick(Received(quiet), false);
    var t4 := Tick(Received(quiet), true);
    var r1 := Fold(r, t1);
    assert [t1, t2, t3, t4] == [t1] + [t2, t3, t4];
    WaitEndsFirst(r, t1, [t2, t3, t4]);
    CancelAfterOnePoint(steps[1..], [MoveCommand(steps[0])], r1, c2, quiet);
    StepContinues(steps, [SoftStopAll], r, [t1, t2, t3, t4], r1, [t2, t3, t4]);
  }

  /** The last part of the scenario above: one step ending on
      `on_condition.x_y` at `c2`, then a step cancelled after a flagless
      frame. */
  lemma CancelAfterOnePoint(steps: seq<SequenceStep>, pending: Buffer, r1: Rema, c2: Point3D, quiet: Telemetry)
    requires |steps| >= 2 && !quiet.probe && !quiet.xy
    ensures var feed := [Tick(Received(Telemetry(c2, false, true)), false),
                         Tick(Received(quiet), false),
                         Tick(Received(quiet), true)];
      CancelledWith(RunSteps(steps, pending, r1, feed, None), [c2], 2)
  {
    var t2 := Tick(Received(Telemetry(c2, false, true)), false);
    var t3 := Tick(Received(quiet), false);
    var t4 := Tick(Received(quiet), true);
    var r2 := Fold(r1, t2);
    assert [t2, t3, t4] == [t2] + [t3, t4];
    WaitEndsFirst(r1, t2, [t3, t4]);
    CancelledStep(steps[1..], [MoveCommand(steps[0])], r2, quiet);
    StepContinues(steps, pending, r1, [t2, t3, t4], r2, [t3, t4]);
  }

  /** A step in which a flagless frame arrives and then a cancel: one buffer
      is sent, no point is recorded, and the run stops. */
  lemma CancelledStep(steps: seq<SequenceStep>, pending: Buffer, r2: Rema, quiet: Telemetry)
    requires |steps| >= 1 && !quiet.probe && !quiet.xy
    ensures CancelledWith(RunSteps(steps, pending, r2, [Tick(Received(quiet), false), Tick(Received(quiet), true)], None), [], 1)
  {
    var t3 := Tick(Received(quiet), false);
    var t4 := Tick(Received(quiet), true);
    assert [t3, t4] == [t3] + [t4];
    WaitPasses(r2, t3, [t4]);
    assert [t4] == [t4] + [];
    WaitEndsFirst(Fold(r2, t3), t4, []);
    StepCancels(steps, pending, r2, [t3, t4], Fold(Fold(r2, t3), t4), []);
  }

  /** A frame that meets the exit condition ends the wait at once. */
  lemma WaitEndsFirst(r: Rema, t: Tick, rest: seq<Tick>)
    requires WaitOver(Fold(r, t))
    ensures Wait(r, [t] + rest) == Exited(Fold(r, t), rest)
  {
    assert ([t] + rest)[1..] == rest;
  }

  /** A frame that does not meet the exit condition is folded in and the
      wait goes on. */
  lemma WaitPasses(r: Rema, t: Tick, rest: seq<Tick>)
    requires !WaitOver(Fold(r, t))
    ensures Wait(r, [t] + rest) == Wait(Fold(r, t), rest)
  {
    assert ([t] + rest)[1..] == rest;
  }

  /** A step whose wait ends without a cancel sends one buffer, records its
      point, and hands over to the next step. */
  lemma StepContinues(steps: seq<SequenceStep>, pending: Buffer, r: Rema, feed: seq<Tick>, r': Rema, rest: seq<Tick>)
    requires |steps| > 0 && Wait(r, feed) == Exited(r', rest) && !r'.cancelCmd
    ensures var tail := RunSteps(steps[1..], [MoveCommand(steps[0])], r', rest, None);
      var run := RunSteps(steps, pending, r, feed, None);
      && run.points == (if r'.telemetry.xy then [r'.telemetry.coords] else []) + tail.points
      && run.status == tail.status && run.rema == tail.rema && run.rest == tail.rest
      && |run.sent| == 1 + |tail.sent|
  {
    assert Cleared(pending) + [MoveCommand(steps[0])] == [MoveCommand(steps[0])];
  }

  /** A step whose wait ends on a cancel sends one buffer and stops the run. */
  lemma StepCancels(steps: seq<SequenceStep>, pending: Buffer, r: Rema, feed: seq<Tick>, r': Rema, rest: seq<Tick>)
    requires |steps| > 0 && Wait(r, feed) == Exited(r', rest) && r'.cancelCmd
    ensures RunSteps(steps, pending, r, feed, None)
         == Run([[MoveCommand(steps[0])]], [r'], if r'.telemetry.xy then [r'.telemetry.coords] else [],
                r'.(isDetermining := false), rest, Cancelled)
  {
    assert Cleared(pending) + [MoveCommand(steps[0])] == [MoveCommand(steps[0])];
  }
}

=== FILE: tube_ids.dfy ===
/** Tube-id parsing in `hx_load_tubesheet_cmd`: the integer read by
    `std::stoi` from the CSV field with its first five characters dropped.
    `stoi` follows `strtol` in base 10 (leading white space, an optional
    sign, the longest run of digits, anything after it ignored) and then
    insists that a conversion took place and that the value fits an `int`. */
module TubeIds {
  import opened Wrappers

  const IntMin: int := -0x8000_0000
  const IntMax: int := 0x7fff_ffff

  /** The values of a 32-bit `int`. */
  type Int32 = x: int | -0x8000_0000 <= x <= 0x7fff_ffff

  /** The number of characters `substr(5)` drops. */
  const LabelPrefix: nat := 5

  /** Why the parse threw: `substr` past the end of the field (carrying the
      field's size), `std::invalid_argument` (no conversion), or
      `std::out_of_range` (the value does not fit an `int`). */
  datatype ParseError = SubstrOutOfRange(size: nat) | InvalidArgument | OutOfRange

  /** White space as `isspace` sees it in the C locale. */
  predicate IsSpace(c: char)
  {
    c == ' ' || c == '\t' || c == '\n' || c == '\U{000B}' || c == '\U{000C}' || c == '\r'
  }

  predicate IsDigit(c: char)
  {
    '0' <= c <= '9'
  }

  predicate AllDigits(s: string)
  {
    forall i :: 0 <= i < |s| ==> IsDigit(s[i])
  }

  /** The number of leading white-space characters. */
  function SpaceRun(s: string): (n: nat)
    ensures n <= |s|
    ensures forall i :: 0 <= i < n ==> IsSpace(s[i])
    ensures n < |s| ==> !IsSpace(s[n])
  {
    if |s| == 0 || !IsSpace(s[0]) then 0 else 1 + SpaceRun(s[1..])
  }

  /** The length of the longest prefix made of digits. */
  function DigitRun(s: string): (n: nat)
    ensures n <= |s|
    ensures AllDigits(s[..n])
    ensures n < |s| ==> !IsDigit(s[n])
  {
    if |s| == 0 || !IsDigit(s[0]) then 0
    else
      var n := 1 + DigitRun(s[1..]);
      assert forall i :: 1 <= i < n ==> s[..n][i] == s[1..][..n - 1][i - 1];
      n
  }

  function DigitValue(c: char): (d: nat)
    requires IsDigit(c)
    ensures d < 10
  {
    (c as int - '0' as int) as nat
  }

  function Digit(d: nat): (c: char)
    requires d < 10
    ensures IsDigit(c) && DigitValue(c) == d
  {
    ('0' as int + d) as char
  }

  /** The value of a string of decimal digits, most significant first. */
  function DigitsValue(s: string): (v: nat)
    requires AllDigits(s)
  {
    if |s| == 0 then 0
    else DigitsValue(s[..|s| - 1]) * 10 + DigitValue(s[|s| - 1])
  }

  /** The decimal representation of `n`, without leading zeros. */
  function Decimal(n: nat): (s: string)
    ensures |s| > 0 && AllDigits(s)
    ensures s[0] != '0' || n == 0
  {
    if n < 10 then [Digit(n)] else Decimal(n / 10) + [Digit(n % 10)]
  }

  /** Reading back the decimal representation gives the number. */
  lemma {:induction false} DecimalRoundTrip(n: nat)
    ensures DigitsValue(Decimal(n)) == n
  {
    if n >= 10 {
      var s := Decimal(n);
      assert s[..|s| - 1] == Decimal(n / 10);
      DecimalRoundTrip(n / 10);
    }
  }

  /** `std::stoi(s)`: leading white space is skipped before the number is
      read. */
  function Stoi(s: string): (r: Result<Int32, ParseError>)
    ensures r.Failure? ==> r.error == InvalidArgument || r.error == OutOfRange
  {
    SignedNumber(s[SpaceRun(s)..])
  }

  /** An optional sign, then the longest run of digits; no digit at all is
      `std::invalid_argument`, a value outside `int` is `std::out_of_range`. */
  function SignedNumber(u: string): (r: Result<Int32, ParseError>)
    ensures r.Failure? ==> r.error == InvalidArgument || r.error == OutOfRange
  {
    var negative := 0 < |u| && u[0] == '-';
    var j := if 0 < |u| && (u[0] == '-' || u[0] == '+') then 1 else 0;
    var n := DigitRun(u[j..]);
    if n == 0 then Failure(InvalidArgument)
    else
      var v := DigitsValue(u[j..][..n]);
      var value: int := if negative then -(v as int) else v;
      if IntMin <= value <= IntMax then Success(value) else Failure(OutOfRange)
  }

  /** `std::stoi(field.substr(5))`. */
  function ParseTubeId(field: string): (r: Result<Int32, ParseError>)
    ensures r.Failure? && r.error.SubstrOutOfRange? <==> |field| < LabelPrefix
    ensures r.Failure? && r.error.SubstrOutOfRange? ==> r.error.size == |field|
  {
    if |field| < LabelPrefix then Failure(SubstrOutOfRange(|field|)) else Stoi(field[LabelPrefix..])
  }

  /** The `what()` text of each exception, as libstdc++ words it. */
  function What(e: ParseError): string
  {
    match e
    case SubstrOutOfRange(size) =>
      "basic_string::substr: __pos (which is 5) > this->size() (which is " + Decimal(size) + ")"
    case InvalidArgument => "stoi"
    case OutOfRange => "stoi"
  }

  /** The maximal digit run of a digit string followed by something that
      does not start with a digit is that digit string. */
  lemma DigitRunOfNumber(d: string, rest: string)
    requires |d| > 0 && AllDigits(d)
    requires |rest| == 0 || !IsDigit(rest[0])
    ensures DigitRun(d + rest) == |d|
    ensures (d + rest)[..|d|] == d
  {
    var s := d + rest;
    var n := DigitRun(s);
    assert forall i :: 0 <= i < |d| ==> s[i] == d[i];
    assert n >= |d|;
    if |rest| > 0 {
      assert s[|d|] == rest[0];
      assert n <= |d|;
    }
    assert s[..|d|] == d;
  }

  /** `stoi` of a decimal number, possibly followed by a non-digit suffix:
      the number when it fits an `int`, `std::out_of_range` otherwise. */
  lemma StoiOfDecimal(n: nat, rest: string)
    requires |rest| == 0 || !IsDigit(rest[0])
    ensures Stoi(Decimal(n) + rest) == if n <= IntMax then Success(n) else Failure(OutOfRange)
  {
    var s := Decimal(n) + rest;
    assert s[0] == Decimal(n)[0];
    assert SpaceRun(s) == 0;
    assert s[0..] == s;
    DigitRunOfNumber(Decimal(n), rest);
    DecimalRoundTrip(n);
  }

  /** `stoi` of a minus sign and a decimal number. */
  lemma StoiOfNegativeDecimal(n: nat, rest: string)
    requires |rest| == 0 || !IsDigit(rest[0])
    ensures Stoi("-" + Decimal(n) + rest) == if n <= -IntMin then Success(-(n as int)) else Failure(OutOfRange)
  {
    var s := "-" + Decimal(n) + rest;
    assert SpaceRun(s) == 0;
    assert s[1..] == Decimal(n) + rest;
    DigitRunOfNumber(Decimal(n), rest);
    DecimalRoundTrip(n);
  }

  /** A field made of any five characters followed by the decimal form of a
      non-negative `int`, and possibly by a non-digit suffix, parses to
      that number. */
  lemma ParsesDecimal(prefix: string, n: nat, rest: string)
    requires |prefix| == LabelPrefix && n <= IntMax
    requires |rest| == 0 || !IsDigit(rest[0])
    ensures ParseTubeId(prefix + Decimal(n) + rest) == Success(n)
  {
    DropPrefix(prefix, Decimal(n), rest);
    StoiOfDecimal(n, rest);
  }

  /** A minus sign right after the prefix negates the number; the most
      negative `int` is reachable this way. */
  lemma ParsesNegativeDecimal(prefix: string, n: nat, rest: string)
    requires |prefix| == LabelPrefix && n <= -IntMin
    requires |rest| == 0 || !IsDigit(rest[0])
    ensures ParseTubeId(prefix + "-" + Decimal(n) + rest) == Success(-(n as int))
  {
    SignedAfterLabel(prefix, "-", Decimal(n), rest);
    StoiOfNegativeDecimal(n, rest);
  }

  /** `substr(5)` of a field that starts with a five-character label. */
  lemma DropPrefix(prefix: string, a: string, b: string)
    requires |prefix| >= LabelPrefix
    ensures prefix + a + b == prefix + (a + b)
    ensures (prefix + (a + b))[LabelPrefix..] == prefix[LabelPrefix..] + (a + b)
  {
  }

  lemma SignedAfterLabel(prefix: string, sign: string, digits: string, rest: string)
    requires |prefix| == LabelPrefix
    ensures (prefix + sign + digits + rest)[LabelPrefix..] == sign + digits + rest
  {
    var u := sign + digits + rest;
    assert prefix + sign + digits + rest == prefix + u;
  }

  /** A number above `INT_MAX` is rejected with `std::out_of_range`. */
  lemma TooLargeIsOutOfRange(prefix: string, n: nat)
    requires |prefix| == LabelPrefix && n > IntMax
    ensures ParseTubeId(prefix + Decimal(n)) == Failure(OutOfRange)
  {
    assert (prefix + Decimal(n))[LabelPrefix..] == Decimal(n) + [];
    StoiOfDecimal(n, []);
  }

  /** Labels of exactly five characters, and labels whose remainder holds
      no digit after the white space and the sign, throw
      `std::invalid_argument`. */
  lemma NoDigitsIsInvalid(field: string)
    requires |field| >= LabelPrefix
    requires var s := field[LabelPrefix..];
      var i := SpaceRun(s);
      var j := if i < |s| && (s[i] == '-' || s[i] == '+') then i + 1 else i;
      j == |s| || !IsDigit(s[j])
    ensures ParseTubeId(field) == Failure(InvalidArgument)
  {
  }

  /** White space between the prefix and the number is skipped. */
  lemma LeadingSpaceSkipped(prefix: string, c: char, s: string)
    requires |prefix| == LabelPrefix && IsSpace(c)
    ensures ParseTubeId(prefix + [c] + s) == ParseTubeId(prefix + s)
  {
    assert (prefix + [c] + s)[LabelPrefix..] == [c] + s;
    assert (prefix + s)[LabelPrefix..] == s;
    StoiSkipsSpace(c, s);
  }

  lemma StoiSkipsSpace(c: char, s: string)
    requires IsSpace(c)
    ensures Stoi([c] + s) == Stoi(s)
  {
    var t := [c] + s;
    assert t[1..] == s;
    assert SpaceRun(t) == SpaceRun(s) + 1;
    assert t[SpaceRun(t)..] == s[SpaceRun(s)..];
  }
}

=== FILE: wrappers.dfy ===
/** Failure-carrying values shared by the modules of this model: an absent
    value, and the outcome of a call that may throw. */
module Wrappers {

  datatype Option<+T> = None | Some(value: T)

  /** `Failure` stands for a C++ exception leaving the call; `error` is what
      the exception carries. */
  datatype Result<+R, +E> = Success(value: R) | Failure(error: E) {
    predicate IsFailure() {
      Failure?
    }

    function PropagateFailure<U>(): Result<U, E>
      requires Failure?
    {
      Failure(error)
    }

    function Extract(): R
      requires Success?
    {
      value
    }
  }

  /** Concatenation is associative. */
  lemma SeqAssoc<T>(a: seq<T>, b: seq<T>, c: seq<T>)
    ensures a + (b + c) == (a + b) + c
  {
  }
}
